=== FILE: README.md ===
# Backlink discovery, modelled in Dafny

This project models the backlink search of the Obsidian tool set
(`BacklinkDiscoveryToolHandler`, the `obsidian_get_backlinks` tool). It takes a
vault of notes and the path of a target note. It returns one `{path, filename}`
record for every other note that links to the target with a `[[...]]` wiki link.
The search works in these steps:

- **Code masking.** Fenced code blocks and inline backtick spans are masked.
  No link inside them is ever read (modules `Fences`, `CodeSpans`).
- **Link extraction.** The scan finds every unmasked `[[inner]]` that is not
  preceded by a backslash (`Tokenizer`).
- **Reference parsing.** The reference is the text before the first `|`,
  trimmed, with a trailing `.md` stripped (`LinkRefs`).
- **Target identity.** The target's names are its base name plus the aliases in
  its `---` front-matter block (`FrontMatter`, `Identity`). The target path
  resolves as written, or with `.md` appended when the file name has no
  extension.
- **Matching.** A link refers to the target when its normalised reference
  equals one of those names exactly.
- **Aggregation.** The result has one record per linking note, never the
  target itself, in vault order (`Backlinks`).

The three test vaults are restated as concrete notes in `BasicVault`,
`ComplexVault` and `EdgeVault`, and their search results are proved exactly.
`NoteFacts` holds the general lemmas those proofs use. `Strings` and `Wrappers`
are small helpers.

A vault is a sequence of `Doc(path, content)`. Paths are vault-relative, with
`/` between folders. The model states the behaviour fixed by the fixtures and
assertions of `tests/test_backlinks.py`. Details those tests leave open are
this model's choices, listed under "Left out".

## Model

| member | source | states |
|---|---|---|
| Backlinks.FindBacklinks | tests/test_backlinks.py:257-264 | The search fails exactly when the target path cannot be resolved, and the error is `TargetNotFound` carrying the requested path. |
| Backlinks.Collect | tests/test_backlinks.py:124-133 | The collected records have pairwise distinct paths, none of them is the target's path, and each record's filename is the last segment of its path. |
| Backlinks.ResultWellFormed | tests/test_backlinks.py:124-133 | A successful search result has pairwise distinct paths, never holds the resolved target's path, and names each record's file by the last segment of its path. |
| Backlinks.CollectPaths | tests/test_backlinks.py:136-203 | A path is among the collected records exactly when some note of the vault at that path, other than the target, passes the link test. |
| Backlinks.ResultExact | tests/test_backlinks.py:136-203 | A path is in the search result exactly when it is not the target's path and some note at that path links to the target by its base name or an alias. |
| Backlinks.LinkingNoteOnce | tests/test_backlinks.py:182-192 | A note that links to the target, however many times, occurs in the result exactly once. |
| Backlinks.UniqueCount | tests/test_backlinks.py:182-192 | In a record list with distinct paths, no path occurs more than once. |
| Backlinks.Count | tests/test_backlinks.py:191 | The number of records at a path is at most the list length, and it is zero exactly when no record has that path. |
| Backlinks.NoLinksNoResult | tests/test_backlinks.py:114-122 | When no other note links to the resolved target, the result is the empty list, not an error. |
| Backlinks.CollectSelected | tests/test_backlinks.py:136-203 | In a vault with distinct paths, the result is exactly the records of the linking notes, each once, in vault order. |
| Backlinks.SelectedAppend | tests/test_backlinks.py:136-203 | Adding a note at the end of the vault adds its record at the end of the selection when, and only when, it links. |
| Backlinks.AnyRefers | tests/test_backlinks.py:182-192 | The scan of a note's links answers true exactly when some link token refers to one of the target's names. |
| Backlinks.LinksToExact | tests/test_backlinks.py:206-252 | A note links to the target exactly when it holds, outside code and unescaped, a link whose reference is one of the target's names. |
| Backlinks.ScanTokens | tests/test_backlinks.py:182-192 | The early-exit loop over a note's link tokens returns true exactly when some token refers to the target. |
| Backlinks.ScanNote | tests/test_backlinks.py:206-252 | Scanning a note answers whether an unmasked, unescaped link in it refers to the target. |
| Backlinks.CollectLoop | tests/test_backlinks.py:136-203 | The single pass over the vault, which keeps a set of recorded paths, produces the same records as the recursive definition. |
| Backlinks.Search | tests/test_backlinks.py:90-99 | The search method returns exactly the result the functional definition gives: the error, or the collected records. |
| Backlinks.OnlyLinkNoLinks | tests/test_backlinks.py:208-219 | A note whose only link carries a reference that is not one of the target's names does not link to the target. |
| Backlinks.PlainLinkLinks | tests/test_backlinks.py:90-99 | In a note with no backticks or tildes, one link that refers to the target is enough for the note to link to it. |
| Backlinks.NoBracketNoLinks | tests/test_backlinks.py:18-19 | A note with no `[` links to nothing. |
| Backlinks.MaskedBracketsNoLinks | tests/test_backlinks.py:221-241 | A note whose every `[` lies in code links to nothing. |
| Tokenizer.TokensExact | tests/test_backlinks.py:221-252 | A token is extracted exactly when its link `[[t]]` occurs somewhere in the text, all of it unmasked and not preceded by an unmasked backslash. |
| Tokenizer.LinkAt | tests/test_backlinks.py:82-83 | At a given offset, the link found is exactly the one `IsLinkAt` describes: opening pair not escaped, non-empty inner run, the first closing pair. |
| Tokenizer.ScanSound | tests/test_backlinks.py:221-252 | Every token the scan emits is a real link at or after the scan's start. |
| Tokenizer.ScanComplete | tests/test_backlinks.py:221-252 | The scan emits every link at or after its start. |
| Tokenizer.EscapedNotLink | tests/test_backlinks.py:82-83 | No link starts right after an unmasked backslash. |
| Tokenizer.LinkRun | tests/test_backlinks.py:64-74 | The run of link characters from a position is maximal: it stops at the first bracket, newline, masked position or end of text. |
| Tokenizer.NoBracketNoTokens | tests/test_backlinks.py:221-241 | A text with no unmasked `[` yields no tokens. |
| Tokenizer.ScanSkip | tests/test_backlinks.py:221-252 | A stretch of positions where no link starts does not change what the scan emits. |
| Tokenizer.LinkDetermined | tests/test_backlinks.py:64-74 | The link at an offset is unique: its inner text ends at the first closing pair. |
| Fences.OpeningFence | tests/test_backlinks.py:76-77 | A line opens a fence exactly when it starts with three equal backticks or tildes, and for backticks the rest of the line has no backtick. The fence remembers the marker and the full run width. |
| Fences.MaskExact | tests/test_backlinks.py:221-230 | A position is masked exactly when a fence is open at the start of its line or its line opens one. |
| Fences.MaskedInBlock | tests/test_backlinks.py:221-230 | Every masked position lies in a fenced block. Some line at or before it, reached with no fence open, opened a fence that nothing closed before the position's line. |
| Fences.FencedBlockMasked | tests/test_backlinks.py:221-230 | A block from an opening fence to its closing fence is masked, both fence lines included, and no fence is open after it. |
| Fences.UnclosedFenceMasked | tests/test_backlinks.py:221-230 | A fence that is never closed masks everything to the end of the text. |
| Fences.NoFenceNoMask | tests/test_backlinks.py:90-99 | Text in which no line starts with a backtick or tilde has nothing fence-masked. |
| Fences.SnippetLeavesNextLine | tests/test_backlinks.py:221-230 | A one-line snippet ```` ```tag``` ```` opens no fence, so the next line stays unmasked. |
| CodeSpans.CodeMaskSound | tests/test_backlinks.py:232-241 | The code mask keeps every fenced position masked. Any other masked position lies inside a paired inline span: two unfenced backticks with no backtick between them, in a stretch that starts at the text start or just after a fenced position, holds nothing fenced before the span, and has an even number of backticks before it. |
| CodeSpans.CodeMaskExact | tests/test_backlinks.py:79-80 | A position is in code exactly when it is fenced or lies in a paired inline span. |
| CodeSpans.SpanMaskSound | tests/test_backlinks.py:232-241 | A span pass resumed in step with the backtick pairing keeps fenced positions masked, and masks other positions only inside paired inline spans that start there or later. |
| CodeSpans.InlineSpanMasked | tests/test_backlinks.py:79-80 | An inline span is masked whole by the code mask when an even number of backticks precede it since the start of the text or the last fenced position, with nothing fenced in between. |
| CodeSpans.ScanReachesSpan | tests/test_backlinks.py:79-80 | In a stretch with nothing fenced, backticks pair up in order: the span scan reaches an unfenced backtick preceded by an even number of backticks and masks from it exactly as a scan started there would. |
| CodeSpans.ScanReachesFence | tests/test_backlinks.py:232-241 | The span scan passes through every fenced position: from a fenced position on, its mask does not depend on where the scan started. |
| CodeSpans.ScanStep | tests/test_backlinks.py:232-241 | One step of the span scan resumes just after a non-opening position, or just after the closing backtick of the span it opens, passing over no fenced position. |
| CodeSpans.PlainTextUnmasked | tests/test_backlinks.py:90-99 | Text without backticks or tildes has nothing masked. |
| CodeSpans.SpanCloseNone | tests/test_backlinks.py:232-241 | When no closing backtick is found, a fenced position comes before every later unfenced backtick. |
| LinkRefs.ParseLink | tests/test_backlinks.py:41-42 | A parsed reference is non-empty, trimmed and free of `|`. Its normalised form is the written name without its trailing `.md`, or the name itself when there is none. |
| LinkRefs.ParseLinkExact | tests/test_backlinks.py:41-42 | A token carries no reference exactly when everything before its first `|` is whitespace. Otherwise the written name is that piece with its surrounding whitespace removed. |
| LinkRefs.PipeIgnored | tests/test_backlinks.py:171-180 | Display text after a `|` never changes the reference a link carries. |
| LinkRefs.ExtensionIgnored | tests/test_backlinks.py:138-158 | `[[name]]` and `[[name.md]]` both refer to `name`. |
| LinkRefs.PaddingIgnored | tests/test_backlinks.py:41-42 | Whitespace around the name inside the brackets does not change the reference. |
| FrontMatter.AliasesRoundTrip | tests/test_backlinks.py:29-30 | Front matter rendered as `---`, `aliases: [a,b,...]`, `---` is read back as exactly those aliases in order, whatever body follows it. |
| FrontMatter.Aliases | tests/test_backlinks.py:29-30 | Every alias read is non-empty, trimmed, and free of commas and line breaks. |
| FrontMatter.Block | tests/test_backlinks.py:29-30 | A front-matter block exists only when the first line is `---` and a later line is `---`. Its key lines are the lines between them, and none of them is `---`. |
| FrontMatter.AliasValue | tests/test_backlinks.py:29-30 | The aliases value comes from the first key line starting with `aliases:`, or there is none when no line does. |
| FrontMatter.NoFrontMatter | tests/test_backlinks.py:12-13 | A note that does not open with a `---` line declares no aliases. |
| FrontMatter.FlowListOfPieces | tests/test_backlinks.py:29-30 | A bracketed list of comma-separated pieces yields the trimmed, non-blank pieces in order. |
| Identity.ResolveTarget | tests/test_backlinks.py:257-264 | The target resolves to the note at the exact path. Failing that, when the file name has no extension, it resolves to the note at path + `.md`. Otherwise it is `TargetNotFound`, and that error happens exactly when neither note exists. |
| Identity.MarkdownHasExtension | tests/test_backlinks.py:90-95 | A target written with `.md` after a non-empty name already has an extension, so it is never extended again. |
| Identity.NoteIdentity | tests/test_backlinks.py:160-169 | A note's names are exactly its base name and its declared aliases. |
| Identity.RefersExactly | tests/test_backlinks.py:208-219 | For a note without front matter, a link refers to it exactly when its normalised reference equals the base name. A longer name that starts with it does not refer to it. |
| Identity.FileName | tests/test_backlinks.py:101-112 | The file name is a suffix of the path with no `/` in it, and a `/` sits just before it when it is shorter than the path. |
| Identity.BaseName | tests/test_backlinks.py:32-36 | The base name is the file name without its trailing `.md`, or the whole file name when there is none. |
| Identity.NamesOfNote | tests/test_backlinks.py:194-203 | A note `name.md` at the top of the vault or inside a folder has file name `name.md` and base name `name`. |
| Identity.Find | tests/test_backlinks.py:257-264 | Lookup by path finds a note of the vault at exactly that path, and finds none exactly when no note has it. |
| NoteFacts.FencedLink | tests/test_backlinks.py:76-77 | A note that is exactly a ```` ``` ```` line, one non-empty body line not starting with a backtick, and a closing ```` ``` ```` line links to nothing, whatever link the body line holds. |
| NoteFacts.InlineCodeLink | tests/test_backlinks.py:79-80 | In a one-line text that does not start with a backtick or tilde and holds no other brackets, a link wrapped in an inline backtick span is never counted, wherever the span sits, provided the backticks before it pair up among themselves. |
| NoteFacts.InlineBracketsMasked | tests/test_backlinks.py:79-80 | Under the same conditions every `[` of the text lies in code. |
| NoteFacts.EscapedLink | tests/test_backlinks.py:82-83 | In a note with no backticks or tildes whose only brackets are those of one link, that link is not counted when a backslash precedes it. The general fact is `Tokenizer.EscapedNotLink` together with `Backlinks.LinksToExact`. |
| NoteFacts.DoubledBackticksUnmasked | tests/test_backlinks.py:79-80 | In the text ``` c ``[[x]]`` ``` the doubled backticks make two empty spans, and the brackets between them lie outside code. |
| NoteFacts.SingleLinkText | tests/test_backlinks.py:70-74 | A plain note with a single link links to the target exactly when that link's reference is one of the target's names. |
| NoteFacts.SomeLinkText | tests/test_backlinks.py:44-45 | A plain note with a link that refers to the target links to it, whatever other links it holds. |
| NoteFacts.PlainIdentity | tests/test_backlinks.py:12-13 | A top-level note `name.md` whose text does not start with `-` has no front matter and is known only as `name`. |
| NoteFacts.NestedRecord | tests/test_backlinks.py:194-203 | The record of a note in a sub-folder keeps the full path and gives the last segment as the filename. |
| BasicVault.SingleBacklink | tests/test_backlinks.py:90-112 | The basic vault's backlinks of `target.md` are exactly one record, with path and filename `linker.md`. |
| BasicVault.NoBacklinks | tests/test_backlinks.py:114-122 | The basic vault's backlinks of `other.md` are the empty list. |
| BasicVault.NonexistentTarget | tests/test_backlinks.py:257-264 | Searching the basic vault for `nonexistent.md` is a `TargetNotFound` error. |
| ComplexVault.SearchTarget | tests/test_backlinks.py:136-203 | The complex vault's backlinks of `target.md` are exactly notes 1 to 5 and `projects/project.md`. That covers links with `.md`, without it, by alias, with display text and from a sub-folder. The note without links and the target are absent. |
| ComplexVault.Note5Once | tests/test_backlinks.py:182-192 | `note5.md` links twice and appears once. |
| ComplexVault.TargetIdentity | tests/test_backlinks.py:29-30 | The target's names are `target`, `goal` and `objective`. |
| EdgeVault.SearchMeeting | tests/test_backlinks.py:206-252 | The edge-case vault's backlinks of `meeting.md` are exactly `agenda.md`. The similar name, fenced, inline-code and escaped links are absent. |
| EdgeVault.ReviewLinksTo | tests/test_backlinks.py:73-74 | `[[meeting-2024]]` links to a note exactly when `meeting-2024` is one of its names. |
| EdgeVault.CodeNoLinks | tests/test_backlinks.py:76-77 | The note whose link sits in a fenced block links to nothing. |
| EdgeVault.InlineNoLinks | tests/test_backlinks.py:79-80 | The note whose link sits in inline code links to nothing. |
| EdgeVault.EscapedNoLinks | tests/test_backlinks.py:82-83 | The note whose link is escaped links to nothing. |

## Left out

- Reading the vault from disk is not modelled. The vault is an already-read sequence of notes, so file reads, per-file read errors and the vault-directory check (`tests/test_backlinks.py:274-281`) are left out.
- JSON serialisation of the records and the text-content wrapping of the tool's reply are transport formatting and are left out.
- The missing-`target_path` argument error (`tests/test_backlinks.py:266-272`) is argument plumbing and is left out.
- The tool's name, description, input schema and server registration (`tests/test_backlinks.py:284-308`) are metadata and are left out.
- Path arithmetic is left out. Paths are compared as raw strings, so `./target.md` or `a//b.md` does not resolve to the note stored as `target.md` or `a/b.md`.
- Records are vault-relative. The tests only check that the path contains the note's name, which an absolute path would also satisfy.
- Result order is the vault's order. No test depends on it.
- `\r\n` line endings are not treated as line breaks, so a `\r` stays part of its line. A `---\r` delimiter line is not recognised, and a closing fence line ending in `\r` does not close its block.
- Aliases: only the one-line flow list `aliases: [a, b]` is read. Quoted items keep their quotes. Block lists (`- a`), a scalar value, the `alias:` key and any other YAML yield no aliases.
- CodeSpans.SpanClose: an inline span runs to the next unfenced backtick, across lines and blank lines. A backtick opens no span when a fenced position comes before the next backtick. Backtick runs are not matched by length, so ` ``[[x]]`` ` is read as two empty spans and the link between them is not masked (`NoteFacts.DoubledBackticksUnmasked`).
- Tokenizer.IsLinkChar: a link's inner text may not hold `[`, `]` or a newline. Such text is not a link at all.
- Tokenizer.Escaped: a single preceding backslash escapes a link even when that backslash is itself escaped (`\\[[x]]`).
- Fences.OpeningFence: fences are recognised only at the very start of a line. An indented fence, or a fence inside a list or block quote, is ordinary text.
- Identity.ResolveTarget: `.md` is appended only when the file name has no extension. Every target the tests request already ends in `.md`.
- Identity.NoteIdentity: a note's names are its base name and its aliases only. A folder-qualified link such as `[[projects/project]]` does not refer to `projects/project.md` unless an alias says so. No test links by folder path.
- Strings.IsSpace: trimming removes the characters Python's `str.isspace` accepts, with no Unicode normalisation or case folding.
- Matching compares exact strings and is case-sensitive.

=== FILE: backlinks.dfy ===
/** Backlink discovery. Given a vault and the path of a target note, the
    result lists every other note containing at least one link that refers
    to the target, one record per note path, in vault order; a target that
    cannot be resolved is an error. Scanning a note stops at its first
    matching link. */
module Backlinks {
  import opened Wrappers
  import opened Fences
  import opened CodeSpans
  import opened Tokenizer
  import opened Identity

  /** One result record: where the linking note is, and its file name. */
  datatype Backlink = Backlink(path: string, filename: string)

  /** Some link token among `tokens` refers to a note named by `ids`; the
      scan stops at the first one that does. */
  function AnyRefers(ids: set<string>, tokens: seq<string>): (found: bool)
    ensures found <==> exists k :: 0 <= k < |tokens| && RefersTo(ids, tokens[k])
  {
    if tokens == [] then false
    else if RefersTo(ids, tokens[0]) then true
    else
      var found := AnyRefers(ids, tokens[1..]);
      assert found ==> exists k :: 0 <= k < |tokens| && RefersTo(ids, tokens[k]) by {
        if found {
          var k :| 0 <= k < |tokens[1..]| && RefersTo(ids, tokens[1..][k]);
          assert tokens[k + 1] == tokens[1..][k];
        }
      }
      assert (exists k :: 0 <= k < |tokens| && RefersTo(ids, tokens[k])) ==> found by {
        if k :| 0 <= k < |tokens| && RefersTo(ids, tokens[k]) {
          assert k > 0 && tokens[1..][k - 1] == tokens[k];
        }
      }
      found
  }

  /** A text links to a note named by `ids`. */
  predicate LinksTo(ids: set<string>, text: string) {
    AnyRefers(ids, Tokens(text))
  }

  /** A text links to a note exactly when, somewhere outside code and not
      escaped, it holds a link whose reference is one of the note's names. */
  lemma LinksToExact(ids: set<string>, text: string)
    ensures LinksTo(ids, text)
            <==> exists i, t :: IsLinkAt(text, CodeMask(text), i, t) && RefersTo(ids, t)
  {
    var tokens := Tokens(text);
    if LinksTo(ids, text) {
      var k :| 0 <= k < |tokens| && RefersTo(ids, tokens[k]);
      TokensExact(text, tokens[k]);
    }
    if i, t :| IsLinkAt(text, CodeMask(text), i, t) && RefersTo(ids, t) {
      TokensExact(text, t);
      var k :| 0 <= k < |tokens| && tokens[k] == t;
    }
  }

  /** The record for a note. */
  function Record(doc: Doc): Backlink {
    Backlink(doc.path, FileName(doc.path))
  }

  /** The paths the records name. */
  function RecordPaths(rs: seq<Backlink>): (ps: set<string>)
    ensures forall p :: p in ps <==> exists k :: 0 <= k < |rs| && rs[k].path == p
  {
    set k | 0 <= k < |rs| :: rs[k].path
  }

  lemma RecordPathsAppend(rs: seq<Backlink>, r: Backlink)
    ensures RecordPaths(rs + [r]) == RecordPaths(rs) + {r.path}
  {
    var xs := rs + [r];
    forall q | q in RecordPaths(xs) ensures q in RecordPaths(rs) + {r.path} {
      var k :| 0 <= k < |xs| && xs[k].path == q;
      if k < |rs| { assert xs[k] == rs[k]; }
    }
    forall q | q in RecordPaths(rs) ensures q in RecordPaths(xs) {
      var k :| 0 <= k < |rs| && rs[k].path == q;
      assert xs[k] == rs[k];
    }
    assert xs[|rs|] == r;
  }

  /** No two records name the same path. */
  predicate UniquePaths(rs: seq<Backlink>) {
    forall j, k :: 0 <= j < k < |rs| ==> rs[j].path != rs[k].path
  }

  /** The test a note must pass to link to a note named by `ids`. */
  function Linker(ids: set<string>): Doc -> bool {
    (d: Doc) => LinksTo(ids, d.content)
  }

  /** `doc` is a backlink source: not the target at `self`, and passing
      the link test. */
  predicate Links(self: string, links: Doc -> bool, doc: Doc) {
    doc.path != self && links(doc)
  }

  /** The records for the notes of `docs` that link to the target, in order
      of first appearance, one per path, never the target itself. */
  function Collect(docs: seq<Doc>, self: string, links: Doc -> bool): (rs: seq<Backlink>)
    ensures UniquePaths(rs)
    ensures forall k :: 0 <= k < |rs| ==> rs[k].path != self
    ensures forall k :: 0 <= k < |rs| ==> rs[k].filename == FileName(rs[k].path)
    decreases |docs|
  {
    if docs == [] then []
    else
      var last := docs[|docs| - 1];
      var prev := Collect(docs[..|docs| - 1], self, links);
      if Links(self, links, last) && last.path !in RecordPaths(prev) then
        UniqueAppend(prev, Record(last));
        prev + [Record(last)]
      else prev
  }

  /** A path is among the collected records exactly when some note of
      `docs` at that path links to the target. */
  lemma {:induction false} CollectPaths(docs: seq<Doc>, self: string, links: Doc -> bool, p: string)
    ensures p in RecordPaths(Collect(docs, self, links))
            <==> exists d :: d in docs && d.path == p && Links(self, links, d)
    decreases |docs|
  {
    if docs != [] {
      var last := docs[|docs| - 1];
      var init := docs[..|docs| - 1];
      assert docs == init + [last];
      var prev := Collect(init, self, links);
      CollectPaths(init, self, links, p);
      CollectPaths(init, self, links, last.path);
      if Links(self, links, last) && last.path !in RecordPaths(prev) {
        RecordPathsAppend(prev, Record(last));
      }
      if d :| d in docs && d.path == p && Links(self, links, d) {
        if d != last {
          assert d in init;
        }
      }
      if d :| d in init && d.path == p && Links(self, links, d) {
        assert d in docs;
      }
    }
  }

  /** Appending a record for a new path keeps paths distinct. */
  lemma UniqueAppend(rs: seq<Backlink>, r: Backlink)
    requires UniquePaths(rs) && r.path !in RecordPaths(rs)
    ensures UniquePaths(rs + [r])
  {
    var xs := rs + [r];
    forall j, k | 0 <= j < k < |xs| ensures xs[j].path != xs[k].path {
      assert xs[j] == rs[j];
      if k < |rs| { assert xs[k] == rs[k]; }
    }
  }

  /** The backlinks of the note at `target`, or why there are none. */
  function FindBacklinks(vault: seq<Doc>, target: string): (r: Result<seq<Backlink>, Error>)
    ensures r.Err? <==> ResolveTarget(vault, target).Err?
    ensures r.Err? ==> r.error == TargetNotFound(target)
  {
    match ResolveTarget(vault, target)
    case Err(e) => Err(e)
    case Ok(doc) => Ok(Collect(vault, doc.path, Linker(NoteIdentity(doc))))
  }

  /** The target never appears among its own backlinks, no path appears
      twice, and every record's file name is its path's last segment. */
  lemma ResultWellFormed(vault: seq<Doc>, target: string)
    requires FindBacklinks(vault, target).Ok?
    ensures var rs := FindBacklinks(vault, target).value;
            var doc := ResolveTarget(vault, target).value;
            UniquePaths(rs)
            && (forall k :: 0 <= k < |rs| ==> rs[k].path != doc.path)
            && (forall k :: 0 <= k < |rs| ==> rs[k].filename == FileName(rs[k].path))
  {
  }

  /** A path is in the result exactly when some other note at that path
      links to the target by its base name or one of its aliases. */
  lemma ResultExact(vault: seq<Doc>, target: string, p: string)
    requires FindBacklinks(vault, target).Ok?
    ensures var doc := ResolveTarget(vault, target).value;
            p in RecordPaths(FindBacklinks(vault, target).value)
            <==> p != doc.path && exists d :: d in vault && d.path == p
                                   && LinksTo(NoteIdentity(doc), d.content)
  {
    var doc := ResolveTarget(vault, target).value;
    CollectPaths(vault, doc.path, Linker(NoteIdentity(doc)), p);
  }

  /** How often `p` occurs among the records' paths. */
  function Count(rs: seq<Backlink>, p: string): (n: nat)
    ensures n <= |rs|
    ensures n == 0 <==> p !in RecordPaths(rs)
  {
    if rs == [] then 0
    else
      assert RecordPaths(rs) == {rs[0].path} + RecordPaths(rs[1..]) by {
        forall q ensures q in RecordPaths(rs) <==> q in {rs[0].path} + RecordPaths(rs[1..]) {
          if q in RecordPaths(rs) && q != rs[0].path {
            var k :| 0 <= k < |rs| && rs[k].path == q;
            assert rs[1..][k - 1] == rs[k];
          }
          if q in RecordPaths(rs[1..]) {
            var k :| 0 <= k < |rs[1..]| && rs[1..][k].path == q;
            assert rs[k + 1] == rs[1..][k];
          }
        }
      }
      (if rs[0].path == p then 1 else 0) + Count(rs[1..], p)
  }

  /** In a list of records with distinct paths each path occurs at most once. */
  lemma {:induction false} UniqueCount(rs: seq<Backlink>, p: string)
    requires UniquePaths(rs)
    ensures Count(rs, p) <= 1
    decreases |rs|
  {
    if rs != [] {
      assert UniquePaths(rs[1..]) by {
        forall j, k | 0 <= j < k < |rs[1..]| ensures rs[1..][j].path != rs[1..][k].path {
          assert rs[1..][j] == rs[j + 1] && rs[1..][k] == rs[k + 1];
        }
      }
      UniqueCount(rs[1..], p);
    }
  }

  /** A note that links to the target, however many times, appears in the
      result exactly once. */
  lemma LinkingNoteOnce(vault: seq<Doc>, target: string, d: Doc)
    requires FindBacklinks(vault, target).Ok?
    requires d in vault && d.path != ResolveTarget(vault, target).value.path
    requires LinksTo(NoteIdentity(ResolveTarget(vault, target).value), d.content)
    ensures Count(FindBacklinks(vault, target).value, d.path) == 1
  {
    var rs := FindBacklinks(vault, target).value;
    ResultExact(vault, target, d.path);
    UniqueCount(rs, d.path);
  }

  /** When no other note links to the target the result is empty. */
  lemma NoLinksNoResult(vault: seq<Doc>, target: string)
    requires FindBacklinks(vault, target).Ok?
    requires var doc := ResolveTarget(vault, target).value;
             forall d :: d in vault && d.path != doc.path ==> !LinksTo(NoteIdentity(doc), d.content)
    ensures FindBacklinks(vault, target).value == []
  {
    var rs := FindBacklinks(vault, target).value;
    if rs != [] {
      ResultExact(vault, target, rs[0].path);
    }
  }

  /** A link that refers to the note, in text without code, makes the text
      link to the note. */
  lemma PlainLinkLinks(ids: set<string>, text: string, i: nat, t: string)
    requires Plain(text)
    requires IsLinkAt(text, Fill(false, |text|), i, t) && RefersTo(ids, t)
    ensures LinksTo(ids, text)
  {
    PlainTextUnmasked(text);
    LinksToExact(ids, text);
  }

  /** Text without an opening bracket links to nothing. */
  lemma NoBracketNoLinks(ids: set<string>, text: string)
    requires '[' !in text
    ensures !LinksTo(ids, text)
  {
    LinksToExact(ids, text);
  }

  /** Text whose opening brackets all lie in code links to nothing. */
  lemma MaskedBracketsNoLinks(ids: set<string>, text: string)
    requires forall k :: 0 <= k < |text| && text[k] == '[' ==> CodeMask(text)[k]
    ensures !LinksTo(ids, text)
  {
    NoBracketNoTokens(text);
  }

  /** Text whose only link does not refer to the note does not link to it. */
  lemma OnlyLinkNoLinks(ids: set<string>, text: string, i: nat, t: string)
    requires IsLinkAt(text, CodeMask(text), i, t) && !RefersTo(ids, t)
    requires forall k :: 0 <= k < |text| && text[k] == '[' ==> k == i || k == i + 1
    ensures !LinksTo(ids, text)
  {
    LinksToExact(ids, text);
    forall j: nat, u | IsLinkAt(text, CodeMask(text), j, u) ensures !RefersTo(ids, u) {
      assert text[j] == '[' && text[j + 1] == '[';
      LinkDetermined(text, CodeMask(text), i, t, u);
    }
  }

  /** Whether some token refers to a note named by `ids`, checking the
      tokens in order and stopping at the first that does. */
  method ScanTokens(ids: set<string>, tokens: seq<string>) returns (found: bool)
    ensures found == AnyRefers(ids, tokens)
    ensures found <==> exists k :: 0 <= k < |tokens| && RefersTo(ids, tokens[k])
  {
    var k := 0;
    assert tokens[0..] == tokens;
    while k < |tokens|
      invariant 0 <= k <= |tokens|
      invariant AnyRefers(ids, tokens[k..]) == AnyRefers(ids, tokens)
    {
      AnyRefersStep(ids, tokens, k);
      if RefersTo(ids, tokens[k]) {
        return true;
      }
      k := k + 1;
    }
    assert tokens[k..] == [];
    return false;
  }

  /** The tokens from `k` on hold a reference to the note exactly when the
      `k`-th does or those after it do. */
  lemma AnyRefersStep(ids: set<string>, tokens: seq<string>, k: nat)
    requires k < |tokens|
    ensures AnyRefers(ids, tokens[k..]) == (RefersTo(ids, tokens[k]) || AnyRefers(ids, tokens[k + 1..]))
  {
    assert tokens[k..][1..] == tokens[k + 1..];
  }

  /** Whether `text` links to a note named by `ids`. */
  method ScanNote(ids: set<string>, text: string) returns (found: bool)
    ensures found == LinksTo(ids, text)
    ensures found <==> exists i, t :: IsLinkAt(text, CodeMask(text), i, t) && RefersTo(ids, t)
  {
    found := ScanTokens(ids, Tokens(text));
    LinksToExact(ids, text);
  }

  /** The records for the vault's notes linking to the note at `self`
      named by `ids`, in one pass that keeps the paths already recorded and
      skips a note whose path is the target's or already recorded. */
  method CollectLoop(vault: seq<Doc>, self: string, ids: set<string>) returns (records: seq<Backlink>)
    ensures records == Collect(vault, self, Linker(ids))
  {
    records := [];
    var seen: set<string> := {};
    var i := 0;
    while i < |vault|
      invariant 0 <= i <= |vault|
      invariant records == Collect(vault[..i], self, Linker(ids))
      invariant seen == RecordPaths(records)
    {
      var d := vault[i];
      CollectPrefix(vault, i, self, Linker(ids));
      if d.path != self && d.path !in seen {
        var found := ScanNote(ids, d.content);
        assert found == Linker(ids)(d);
        if found {
          RecordPathsAppend(records, Record(d));
          records := records + [Record(d)];
          seen := seen + {d.path};
        }
      }
      i := i + 1;
    }
    assert vault[..|vault|] == vault;
  }

  /** Collecting one more note of a vault extends the records by at most
      that note's own. */
  lemma CollectPrefix(vault: seq<Doc>, i: nat, self: string, links: Doc -> bool)
    requires i < |vault|
    ensures Collect(vault[..i + 1], self, links)
            == var prev := Collect(vault[..i], self, links);
               if Links(self, links, vault[i]) && vault[i].path !in RecordPaths(prev)
               then prev + [Record(vault[i])]
               else prev
  {
    var docs := vault[..i + 1];
    assert docs[..|docs| - 1] == vault[..i];
    assert docs[|docs| - 1] == vault[i];
  }

  /** No two notes of the vault share a path. */
  predicate DistinctPaths(docs: seq<Doc>) {
    forall j, k :: 0 <= j < k < |docs| ==> docs[j].path != docs[k].path
  }

  /** The records of the linking notes, in vault order: the result a vault
      with distinct paths must give. */
  function Selected(docs: seq<Doc>, self: string, links: Doc -> bool): seq<Backlink> {
    if docs == [] then []
    else (if Links(self, links, docs[0]) then [Record(docs[0])] else [])
         + Selected(docs[1..], self, links)
  }

  lemma {:induction false} SelectedAppend(docs: seq<Doc>, last: Doc, self: string, links: Doc -> bool)
    ensures Selected(docs + [last], self, links)
            == Selected(docs, self, links)
               + (if Links(self, links, last) then [Record(last)] else [])
    decreases |docs|
  {
    var xs := docs + [last];
    if docs == [] {
      assert xs[1..] == [];
    } else {
      assert xs[1..] == docs[1..] + [last];
      SelectedAppend(docs[1..], last, self, links);
    }
  }

  /** When the vault's paths are distinct, the backlinks are exactly the
      linking notes, each once, in vault order. */
  lemma {:induction false} CollectSelected(docs: seq<Doc>, self: string, links: Doc -> bool)
    requires DistinctPaths(docs)
    ensures Collect(docs, self, links) == Selected(docs, self, links)
    decreases |docs|
  {
    if docs != [] {
      var last := docs[|docs| - 1];
      var init := docs[..|docs| - 1];
      assert docs == init + [last];
      assert DistinctPaths(init) by {
        forall j, k | 0 <= j < k < |init| ensures init[j].path != init[k].path {
          assert init[j] == docs[j] && init[k] == docs[k];
        }
      }
      CollectSelected(init, self, links);
      SelectedAppend(init, last, self, links);
      CollectPaths(init, self, links, last.path);
      forall d | d in init ensures d.path != last.path {
        var j :| 0 <= j < |init| && init[j] == d;
        assert docs[j] == d;
      }
    }
  }

  /** Selecting from the notes of `docs` from the `i`-th on: that note's
      record, when it links, ahead of the records selected after it. */
  lemma SelectedStep(docs: seq<Doc>, i: nat, self: string, links: Doc -> bool)
    requires i < |docs|
    ensures Selected(docs[i..], self, links)
            == (if Links(self, links, docs[i]) then [Record(docs[i])] else [])
               + Selected(docs[i + 1..], self, links)
  {
    assert docs[i..][1..] == docs[i + 1..];
  }

  /** A linking note keeps its record ahead of those selected after it. */
  lemma SelectedKeep(d: Doc, rest: seq<Doc>, self: string, links: Doc -> bool, rs: seq<Backlink>)
    requires Links(self, links, d) && Selected(rest, self, links) == rs
    ensures Selected([d] + rest, self, links) == [Record(d)] + rs
  {
    assert ([d] + rest)[1..] == rest;
  }

  /** A note that does not link adds nothing to the selection. */
  lemma SelectedSkip(d: Doc, rest: seq<Doc>, self: string, links: Doc -> bool, rs: seq<Backlink>)
    requires !Links(self, links, d) && Selected(rest, self, links) == rs
    ensures Selected([d] + rest, self, links) == rs
  {
    assert ([d] + rest)[1..] == rest;
  }

  /** Once the target is resolved, the result collects the vault's notes
      under the target's names. */
  lemma FindBacklinksOf(vault: seq<Doc>, target: string, doc: Doc, ids: set<string>)
    requires ResolveTarget(vault, target) == Ok(doc) && NoteIdentity(doc) == ids
    ensures FindBacklinks(vault, target) == Ok(Collect(vault, doc.path, Linker(ids)))
  {
  }

  /** The backlink search: resolve the target, then collect. */
  method Search(vault: seq<Doc>, target: string) returns (r: Result<seq<Backlink>, Error>)
    ensures r == FindBacklinks(vault, target)
  {
    var resolved := ResolveTarget(vault, target);
    if resolved.Err? {
      return Err(resolved.error);
    }
    var records := CollectLoop(vault, resolved.value.path, NoteIdentity(resolved.value));
    r := Ok(records);
  }
}

=== FILE: codespans.dfy ===
/** Inline code spans. Outside fenced blocks, a backtick opens a span that
    the next backtick closes; the span, both backticks included, is masked.
    A backtick with no closing backtick before the next fenced line or the
    end of the text is ordinary text. Together with the fenced blocks this
    gives the code mask the link scanner works under: fenced blocks take
    precedence over inline spans. */
module CodeSpans {
  import opened Wrappers
  import opened Fences

  /** Text without code markers: no backtick and no tilde. */
  predicate Plain(text: string) {
    '`' !in text && '~' !in text
  }

  /** `text[a..e + 1]` is an inline code span: backticks at `a` and `e`,
      nothing fenced from `a` to `e`, no backtick in between. */
  predicate IsSpan(text: string, fence: seq<bool>, a: int, e: int)
    requires |fence| == |text|
  {
    0 <= a < e < |text| && text[a] == '`' && text[e] == '`'
    && (forall k :: a <= k <= e ==> !fence[k])
    && (forall k :: a < k < e ==> text[k] != '`')
  }

  /** `text[a..e + 1]` is an inline span the scan pairs up: it lies in a
      stretch that starts at `p`, the start of the text or just after a
      fenced position, holds nothing fenced before `a`, and has an even
      number of backticks before `a`. */
  predicate PairedSpan(text: string, fence: seq<bool>, p: int, a: int, e: int)
    requires |fence| == |text|
  {
    IsSpan(text, fence, a, e) && 0 <= p <= a
    && (p == 0 || fence[p - 1])
    && (forall q :: p <= q < a ==> !fence[q])
    && BacktickCount(text, p, a) % 2 == 0
  }

  /** The span scan, resumed at `i` inside the stretch that starts at `p`,
      keeps step with the pairing of backticks: an even number of them lie
      behind it, or no span can open before the next fenced position. */
  predicate InStep(text: string, fence: seq<bool>, p: nat, i: nat)
    requires |fence| == |text| && i <= |text|
  {
    p <= i && (p == 0 || fence[p - 1])
    && (forall q :: p <= q < i ==> !fence[q])
    && (BacktickCount(text, p, i) % 2 == 0 || SpanClose(text, fence, i).None?)
  }

  /** The backtick that closes a span whose opening backtick lies just
      before `j`: the first backtick from `j` on, unless a fenced position
      or the end of the text comes first. */
  function SpanClose(text: string, fence: seq<bool>, j: nat): (r: Option<nat>)
    requires |fence| == |text| && j <= |text|
    ensures r.Some? ==> j <= r.value < |text| && text[r.value] == '`' && !fence[r.value]
    ensures r.Some? ==> forall k :: j <= k < r.value ==> text[k] != '`' && !fence[k]
    decreases |text| - j
  {
    if j == |text| || fence[j] then None
    else if text[j] == '`' then Some(j)
    else SpanClose(text, fence, j + 1)
  }

  /** When no closing backtick is found, a fenced position comes before
      every later unfenced backtick. */
  lemma {:induction false} SpanCloseNone(text: string, fence: seq<bool>, j: nat, k: nat)
    requires |fence| == |text| && j <= k < |text| && text[k] == '`' && !fence[k]
    requires SpanClose(text, fence, j).None?
    ensures exists i :: j <= i < k && fence[i]
    decreases k - j
  {
    if !fence[j] {
      SpanCloseNone(text, fence, j + 1, k);
    }
  }

  /** The code mask of `text[i..]`: the fenced-block mask `fence` plus every
      inline span found scanning from `i`. */
  function SpanMaskFrom(text: string, fence: seq<bool>, i: nat): (m: seq<bool>)
    requires |fence| == |text| && i <= |text|
    ensures |m| == |text| - i
    decreases |text| - i
  {
    if i == |text| then []
    else if fence[i] || text[i] != '`' then [fence[i]] + SpanMaskFrom(text, fence, i + 1)
    else match SpanClose(text, fence, i + 1)
      case Some(e) => Fill(true, e + 1 - i) + SpanMaskFrom(text, fence, e + 1)
      case None => [false] + SpanMaskFrom(text, fence, i + 1)
  }

  /** Nothing fenced is unmasked, and everything masked is fenced or lies
      in a paired inline span that starts at or after `i`. */
  lemma {:induction false} SpanMaskSound(text: string, fence: seq<bool>, p: nat, i: nat, j: nat)
    requires |fence| == |text| && i + j < |text| && InStep(text, fence, p, i)
    ensures fence[i + j] ==> SpanMaskFrom(text, fence, i)[j]
    ensures SpanMaskFrom(text, fence, i)[j] && !fence[i + j] ==>
              exists r, a, e :: i <= a <= i + j <= e && PairedSpan(text, fence, r, a, e)
    decreases |text| - i
  {
    var m := SpanMaskFrom(text, fence, i);
    var n := ScanStep(text, fence, i);
    if n - i <= j {
      var p1 := StepInStep(text, fence, p, i, n);
      SpanMaskSound(text, fence, p1, n, j - (n - i));
      assert m[j] == m[n - i..][j - (n - i)];
    } else if fence[i] || text[i] != '`' {
      SpanStep(text, fence, i);
    } else {
      match SpanClose(text, fence, i + 1)
      case Some(e) =>
        SpanOpen(text, fence, i, e);
        SpanMasked(text, fence, i, e);
        OpenPaired(text, fence, p, i, e);
      case None =>
        SpanUnclosed(text, fence, i);
    }
  }

  /** One step of the scan keeps it in step with the pairing; a fenced
      position starts a new stretch. */
  lemma StepInStep(text: string, fence: seq<bool>, p: nat, i: nat, n: nat) returns (p1: nat)
    requires |fence| == |text| && i < |text| && n <= |text| && InStep(text, fence, p, i)
    requires fence[i] || text[i] != '`' || SpanClose(text, fence, i + 1).None? ==> n == i + 1
    requires !fence[i] && text[i] == '`' && SpanClose(text, fence, i + 1).Some? ==>
               n == SpanClose(text, fence, i + 1).value + 1
    ensures InStep(text, fence, p1, n)
  {
    if fence[i] {
      p1 := i + 1;
      assert BacktickCount(text, p1, n) == 0;
    } else if text[i] != '`' {
      p1 := p;
      StepOverText(text, fence, p, i);
    } else if SpanClose(text, fence, i + 1).None? {
      p1 := p;
    } else {
      p1 := p;
      StepOverSpan(text, fence, p, i, SpanClose(text, fence, i + 1).value);
    }
  }

  /** Stepping over an unfenced position that holds no backtick. */
  lemma StepOverText(text: string, fence: seq<bool>, p: nat, i: nat)
    requires |fence| == |text| && i < |text| && InStep(text, fence, p, i)
    requires !fence[i] && text[i] != '`'
    ensures InStep(text, fence, p, i + 1)
  {
    BacktickCountSplit(text, p, i, i + 1);
    assert BacktickCount(text, i, i + 1) == 0;
    assert SpanClose(text, fence, i) == SpanClose(text, fence, i + 1);
  }

  /** Stepping over a whole span: two more backticks lie behind the scan. */
  lemma StepOverSpan(text: string, fence: seq<bool>, p: nat, i: nat, e: nat)
    requires |fence| == |text| && i < |text| && InStep(text, fence, p, i)
    requires !fence[i] && text[i] == '`' && SpanClose(text, fence, i + 1) == Some(e)
    ensures InStep(text, fence, p, e + 1)
  {
    SpanKeepsParity(text, fence, p, i, e);
    SpanUnfenced(text, fence, p, i, e);
  }

  /** A span the scan opens while in step leaves an even count behind it. */
  lemma SpanKeepsParity(text: string, fence: seq<bool>, p: nat, i: nat, e: nat)
    requires |fence| == |text| && i < |text| && InStep(text, fence, p, i)
    requires !fence[i] && text[i] == '`' && SpanClose(text, fence, i + 1) == Some(e)
    ensures BacktickCount(text, p, e + 1) % 2 == 0
  {
    assert SpanClose(text, fence, i) == Some(i);
    BacktickCountSplit(text, p, i, e + 1);
    BacktickPair(text, i, e, e + 1);
    Even2(BacktickCount(text, p, i), BacktickCount(text, p, e + 1));
  }

  /** Nothing is fenced from the stretch start to the end of a span the
      scan opens. */
  lemma SpanUnfenced(text: string, fence: seq<bool>, p: nat, i: nat, e: nat)
    requires |fence| == |text| && i < |text| && InStep(text, fence, p, i)
    requires !fence[i] && SpanClose(text, fence, i + 1) == Some(e)
    ensures forall q :: p <= q <= e ==> !fence[q]
  {
    forall q | p <= q <= e
      ensures !fence[q]
    {
      if i < q < e {
        assert text[q] != '`' && !fence[q];
      }
    }
  }

  /** A span the scan opens while in step is a paired span. */
  lemma OpenPaired(text: string, fence: seq<bool>, p: nat, i: nat, e: nat)
    requires |fence| == |text| && i < |text| && InStep(text, fence, p, i)
    requires !fence[i] && text[i] == '`' && SpanClose(text, fence, i + 1) == Some(e)
    ensures PairedSpan(text, fence, p, i, e)
  {
    SpanOpen(text, fence, i, e);
    assert SpanClose(text, fence, i) == Some(i);
  }

  /** A backtick closed by the one at `e` masks the span and resumes after it. */
  lemma SpanOpen(text: string, fence: seq<bool>, i: nat, e: nat)
    requires |fence| == |text| && i < |text| && !fence[i] && text[i] == '`'
    requires SpanClose(text, fence, i + 1) == Some(e)
    ensures IsSpan(text, fence, i, e)
    ensures SpanMaskFrom(text, fence, i) == Fill(true, e + 1 - i) + SpanMaskFrom(text, fence, e + 1)
  {
  }

  /** A backtick that nothing closes is ordinary text. */
  lemma SpanUnclosed(text: string, fence: seq<bool>, i: nat)
    requires |fence| == |text| && i < |text| && !fence[i] && text[i] == '`'
    requires SpanClose(text, fence, i + 1).None?
    ensures SpanMaskFrom(text, fence, i) == [false] + SpanMaskFrom(text, fence, i + 1)
  {
  }

  /** The code mask of a whole text: fenced blocks, then inline spans. */
  function CodeMask(text: string): (m: seq<bool>)
    ensures |m| == |text|
  {
    SpanMaskFrom(text, FenceMask(text), 0)
  }

  /** The code mask keeps every fenced position masked, and masks any other
      position only inside an inline code span the scan pairs up. */
  lemma CodeMaskSound(text: string, k: nat)
    requires k < |text|
    ensures FenceMask(text)[k] ==> CodeMask(text)[k]
    ensures CodeMask(text)[k] && !FenceMask(text)[k] ==>
              exists p, a, e :: a <= k <= e && PairedSpan(text, FenceMask(text), p, a, e)
  {
    SpanMaskSound(text, FenceMask(text), 0, 0, k);
  }

  /** A position is in code exactly when it is fenced or lies in a paired
      inline span. */
  lemma CodeMaskExact(text: string, k: nat)
    requires k < |text|
    ensures CodeMask(text)[k] <==>
              FenceMask(text)[k] || exists p, a, e :: a <= k <= e && PairedSpan(text, FenceMask(text), p, a, e)
  {
    CodeMaskSound(text, k);
    if exists p, a, e :: a <= k <= e && PairedSpan(text, FenceMask(text), p, a, e) {
      var p, a, e :| a <= k <= e && PairedSpan(text, FenceMask(text), p, a, e);
      InlineSpanMasked(text, p, a, e);
    }
  }

  /** A position holding no unfenced backtick keeps its fenced-block flag. */
  lemma SpanStep(text: string, fence: seq<bool>, p: nat)
    requires |fence| == |text| && p < |text| && (fence[p] || text[p] != '`')
    ensures SpanMaskFrom(text, fence, p) == [fence[p]] + SpanMaskFrom(text, fence, p + 1)
  {
  }

  /** A span whose opening backtick the scan reaches is masked whole, and
      the scan goes on just after its closing backtick. */
  lemma SpanMasked(text: string, fence: seq<bool>, a: nat, e: nat)
    requires |fence| == |text| && IsSpan(text, fence, a, e)
    ensures forall j :: 0 <= j <= e - a ==> SpanMaskFrom(text, fence, a)[j]
    ensures SpanMaskFrom(text, fence, a)[e + 1 - a..] == SpanMaskFrom(text, fence, e + 1)
  {
    SpanCloseAt(text, fence, a + 1, e);
    var m := SpanMaskFrom(text, fence, a);
    var head := Fill(true, e + 1 - a);
    var rest := SpanMaskFrom(text, fence, e + 1);
    assert m == head + rest;
    assert m[e + 1 - a..] == rest;
    assert forall j :: 0 <= j <= e - a ==> m[j] == head[j];
  }

  /** The closing backtick of a span is the first unfenced backtick after
      its opening one. */
  lemma {:induction false} SpanCloseAt(text: string, fence: seq<bool>, j: nat, e: nat)
    requires |fence| == |text| && j <= e < |text| && text[e] == '`' && !fence[e]
    requires forall k :: j <= k < e ==> text[k] != '`' && !fence[k]
    ensures SpanClose(text, fence, j) == Some(e)
    decreases e - j
  {
    if j < e {
      SpanCloseAt(text, fence, j + 1, e);
    }
  }

  /** With no unfenced backtick left, the code mask is the fenced-block mask. */
  lemma {:induction false} NoBacktickNoSpan(text: string, fence: seq<bool>, i: nat)
    requires |fence| == |text| && i <= |text|
    requires forall k :: i <= k < |text| ==> fence[k] || text[k] != '`'
    ensures SpanMaskFrom(text, fence, i) == fence[i..]
    decreases |text| - i
  {
    if i < |text| {
      NoBacktickNoSpan(text, fence, i + 1);
    }
  }

  /** The number of backticks in `text[p..a]`. */
  function BacktickCount(text: string, p: nat, a: nat): (n: nat)
    requires p <= a <= |text|
    ensures n <= a - p
    ensures n == 0 <==> forall k :: p <= k < a ==> text[k] != '`'
    decreases a - p
  {
    if p == a then 0
    else (if text[p] == '`' then 1 else 0) + BacktickCount(text, p + 1, a)
  }

  /** A stretch without backticks adds nothing to the count. */
  lemma {:induction false} BacktickCountSkip(text: string, i: nat, j: nat, a: nat)
    requires i <= j <= a <= |text|
    requires forall k :: i <= k < j ==> text[k] != '`'
    ensures BacktickCount(text, i, a) == BacktickCount(text, j, a)
    decreases j - i
  {
    if i < j {
      BacktickCountSkip(text, i + 1, j, a);
    }
  }

  /** Counts over adjacent stretches add up. */
  lemma {:induction false} BacktickCountSplit(text: string, p: nat, b: nat, c: nat)
    requires p <= b <= c <= |text|
    ensures BacktickCount(text, p, c) == BacktickCount(text, p, b) + BacktickCount(text, b, c)
    decreases b - p
  {
    if p < b {
      BacktickCountSplit(text, p + 1, b, c);
    }
  }

  /** The count depends only on the characters counted. */
  lemma {:induction false} BacktickCountSame(x: string, y: string, p: nat, a: nat)
    requires p <= a <= |x| && a <= |y|
    requires forall k :: p <= k < a ==> x[k] == y[k]
    ensures BacktickCount(x, p, a) == BacktickCount(y, p, a)
    decreases a - p
  {
    if p < a {
      BacktickCountSame(x, y, p + 1, a);
    }
  }

  /** In a stretch with nothing fenced, a backtick before the unfenced
      backtick at `a` is closed by the next backtick, which lies at or
      before `a`. */
  lemma SpanCloseWithin(text: string, fence: seq<bool>, p: nat, a: nat) returns (q: nat)
    requires |fence| == |text| && p < a < |text| && text[a] == '`'
    requires forall k :: p < k <= a ==> !fence[k]
    ensures SpanClose(text, fence, p + 1) == Some(q) && q <= a
  {
    if SpanClose(text, fence, p + 1).None? {
      SpanCloseNone(text, fence, p + 1, a);
      assert false;
    }
    q := SpanClose(text, fence, p + 1).value;
    var c := text[a];
    assert a < q ==> c != '`';
  }

  /** Two more keep the parity. */
  lemma Even2(x: nat, y: nat)
    requires y == x + 2
    ensures x % 2 == y % 2
  {
  }

  /** A pair of backticks with none between them adds two to the count. */
  lemma BacktickPair(text: string, p: nat, q: nat, a: nat)
    requires p < q <= a <= |text| && text[p] == '`'
    requires forall k :: p < k < q ==> text[k] != '`'
    ensures q < a && text[q] == '`' ==> BacktickCount(text, p, a) == BacktickCount(text, q + 1, a) + 2
    ensures q == a ==> BacktickCount(text, p, a) == 1
  {
    BacktickCountSkip(text, p + 1, q, a);
  }

  /** One step of the span scan from `i`: it resumes at `n`, having
      passed over no fenced position after `i`; it resumes just after `i`
      unless `i` opens a span, and just after the closing backtick if it
      does. */
  lemma ScanStep(text: string, fence: seq<bool>, i: nat) returns (n: nat)
    requires |fence| == |text| && i < |text|
    ensures i < n <= |text|
    ensures SpanMaskFrom(text, fence, i)[n - i..] == SpanMaskFrom(text, fence, n)
    ensures forall j :: i < j < n ==> !fence[j]
    ensures fence[i] || text[i] != '`' || SpanClose(text, fence, i + 1).None? ==> n == i + 1
    ensures !fence[i] && text[i] == '`' && SpanClose(text, fence, i + 1).Some? ==>
              n == SpanClose(text, fence, i + 1).value + 1
  {
    var m := SpanMaskFrom(text, fence, i);
    if fence[i] || text[i] != '`' {
      SpanStep(text, fence, i);
      n := i + 1;
    } else {
      match SpanClose(text, fence, i + 1)
      case Some(e) =>
        SpanOpen(text, fence, i, e);
        n := e + 1;
        assert m[n - i..] == SpanMaskFrom(text, fence, n);
      case None =>
        SpanUnclosed(text, fence, i);
        n := i + 1;
    }
  }

  /** Within a stretch that holds nothing fenced, backticks pair up in
      order: the scan reaches an unfenced backtick preceded by an even
      number of backticks from where it starts. */
  lemma {:induction false} ScanReachesSpan(text: string, fence: seq<bool>, p: nat, a: nat)
    requires |fence| == |text| && p <= a < |text| && text[a] == '`'
    requires forall k :: p <= k <= a ==> !fence[k]
    requires BacktickCount(text, p, a) % 2 == 0
    ensures SpanMaskFrom(text, fence, p)[a - p..] == SpanMaskFrom(text, fence, a)
    decreases a - p
  {
    if p < a {
      var n := ScanStep(text, fence, p);
      if text[p] == '`' {
        var q := SpanCloseWithin(text, fence, p, a);
        BacktickPair(text, p, q, a);
        if q == a {
          assert false;
        }
        assert n == q + 1;
        Even2(BacktickCount(text, n, a), BacktickCount(text, p, a));
      } else {
        assert n == p + 1;
        assert BacktickCount(text, n, a) == BacktickCount(text, p, a);
      }
      ScanReachesSpan(text, fence, n, a);
      var m := SpanMaskFrom(text, fence, p);
      assert m[a - p..] == m[n - p..][a - n..];
    }
  }

  /** The span scan passes through every fenced position: what it masks
      from a fenced position `k` on does not depend on where it started. */
  lemma {:induction false} ScanReachesFence(text: string, fence: seq<bool>, i: nat, k: nat)
    requires |fence| == |text| && i <= k < |text| && fence[k]
    ensures SpanMaskFrom(text, fence, i)[k - i..] == SpanMaskFrom(text, fence, k)
    decreases k - i
  {
    if i < k {
      var n := ScanStep(text, fence, i);
      assert n <= k;
      ScanReachesFence(text, fence, n, k);
      var m := SpanMaskFrom(text, fence, i);
      assert m[k - i..] == m[n - i..][k - n..];
    }
  }

  /** The code mask from the start of the text or just after a fenced
      position on is the span scan started there. */
  lemma ScanAfterFence(text: string, p: nat)
    requires p <= |text| && (p == 0 || FenceMask(text)[p - 1])
    ensures CodeMask(text)[p..] == SpanMaskFrom(text, FenceMask(text), p)
  {
    if p > 0 {
      var fence := FenceMask(text);
      ScanReachesFence(text, fence, 0, p - 1);
      SpanStep(text, fence, p - 1);
      assert CodeMask(text)[p..] == CodeMask(text)[p - 1..][1..];
    }
  }

  /** An inline span is masked by the code mask whenever an even number of
      backticks precede it since the start of the text or the last fenced
      position, with nothing fenced in between. */
  lemma InlineSpanMasked(text: string, p: nat, a: nat, e: nat)
    requires PairedSpan(text, FenceMask(text), p, a, e)
    ensures forall k :: a <= k <= e ==> CodeMask(text)[k]
  {
    var fence := FenceMask(text);
    var m := CodeMask(text);
    ScanAfterFence(text, p);
    ScanReachesSpan(text, fence, p, a);
    SpanMasked(text, fence, a, e);
    assert m[a..] == m[p..][a - p..];
    forall k | a <= k <= e ensures m[k] {
      assert m[k] == m[a..][k - a];
    }
  }

  /** Text without backticks or tildes has nothing masked. */
  lemma PlainTextUnmasked(text: string)
    requires Plain(text)
    ensures CodeMask(text) == Fill(false, |text|)
  {
    NoFenceNoMask(text, 0);
    var fence := FenceMask(text);
    NoBacktickNoSpan(text, fence, 0);
    assert fence[0..] == fence;
  }
}

=== FILE: fences.dfy ===
/** Fenced code blocks. A line that starts with three or more backticks or
    tildes opens a block; what follows the run on that line is its language
    tag, which after backticks must not hold a backtick (so a one-line
    snippet like ```` ```x``` ```` opens nothing). The block runs to the
    next line made of the same character, at least as many of them, and
    then only spaces or tabs, or to the end of the text when no such line
    follows. Every character of the block, fence lines and their newlines
    included, is masked so that the link scanner never looks inside it.

    Positions are offsets into one fixed text; a line is named by the offset
    of its first character. */
module Fences {
  import opened Wrappers

  /** An open fenced block: the marker character and how many opened it. */
  datatype Fence = Fence(marker: char, width: nat)

  predicate IsFenceChar(c: char) {
    c == '`' || c == '~'
  }

  /** The number of leading copies of `c` in `s`. */
  function RunOf(s: string, c: char): (n: nat)
    ensures n <= |s|
    ensures forall k :: 0 <= k < n ==> s[k] == c
    ensures n < |s| ==> s[n] != c
  {
    if s != [] && s[0] == c then 1 + RunOf(s[1..], c) else 0
  }

  /** The fence `line` opens, if it is an opening fence line: three or more
      equal fence characters at its start; after a run of backticks, the
      rest of the line (its language tag) holds no backtick. */
  function OpeningFence(line: string): (f: Option<Fence>)
    ensures f.Some? <==> |line| >= 3 && IsFenceChar(line[0]) && line[1] == line[0] && line[2] == line[0]
                         && (line[0] == '`' ==> '`' !in line[RunOf(line, '`')..])
    ensures f.Some? ==> f.value.marker == line[0] && 3 <= f.value.width <= |line|
    ensures f.Some? ==> forall k :: 0 <= k < f.value.width ==> line[k] == f.value.marker
    ensures f.Some? && f.value.width < |line| ==> line[f.value.width] != f.value.marker
  {
    if line != [] && IsFenceChar(line[0]) && RunOf(line, line[0]) >= 3
       && (line[0] == '`' ==> '`' !in line[RunOf(line, line[0])..])
    then Some(Fence(line[0], RunOf(line, line[0])))
    else None
  }

  /** `line` closes fence `f`: a run of at least as many of `f`'s marker
      as opened it, followed by nothing but spaces or tabs. */
  predicate ClosesFence(line: string, f: Fence) {
    RunOf(line, f.marker) >= f.width
    && forall k :: RunOf(line, f.marker) <= k < |line| ==> line[k] == ' ' || line[k] == '\t'
  }

  /** Whether a line is masked, and the fence state after it. */
  function Step(line: string, open: Option<Fence>): (bool, Option<Fence>)
  {
    match open
    case None => (OpeningFence(line).Some?, OpeningFence(line))
    case Some(f) => (true, if ClosesFence(line, f) then None else open)
  }

  /** `n` copies of `b`. */
  function Fill(b: bool, n: nat): (r: seq<bool>)
    ensures |r| == n
    ensures forall k :: 0 <= k < n ==> r[k] == b
  {
    if n == 0 then [] else [b] + Fill(b, n - 1)
  }

  /** `i` is where a line starts, or the end of the text. */
  predicate IsLineStart(text: string, i: int) {
    0 <= i <= |text| && (i == 0 || i == |text| || text[i - 1] == '\n')
  }

  /** Where the line starting at `i` ends: its newline, or the end of text. */
  function LineEnd(text: string, i: nat): (e: nat)
    requires i <= |text|
    ensures i <= e <= |text|
    ensures forall k :: i <= k < e ==> text[k] != '\n'
    ensures e < |text| ==> text[e] == '\n'
    decreases |text| - i
  {
    if i == |text| || text[i] == '\n' then i else LineEnd(text, i + 1)
  }

  /** The start of the line after the one starting at `i`. */
  function NextLine(text: string, i: nat): (n: nat)
    requires i < |text|
    ensures i < n <= |text|
    ensures IsLineStart(text, n)
  {
    var e := LineEnd(text, i);
    if e < |text| then e + 1 else |text|
  }

  /** The text of the line starting at `i`, without its newline. */
  function Line(text: string, i: nat): string
    requires i <= |text|
  {
    text[i..LineEnd(text, i)]
  }

  /** One flag per character of `text[i..]`: true when the character lies in
      a fenced block, given the fence state `open` in force at line start `i`. */
  function MaskFrom(text: string, i: nat, open: Option<Fence>): (m: seq<bool>)
    requires i <= |text|
    ensures |m| == |text| - i
    decreases |text| - i
  {
    if i == |text| then []
    else
      var step := Step(Line(text, i), open);
      Fill(step.0, NextLine(text, i) - i) + MaskFrom(text, NextLine(text, i), step.1)
  }

  /** The fenced-block mask of a whole text. */
  function FenceMask(text: string): (m: seq<bool>)
    ensures |m| == |text|
  {
    MaskFrom(text, 0, None)
  }

  /** The fence state on reaching line start `o` when masking from line
      start `i` with state `open`. */
  function StateAt(text: string, i: nat, open: Option<Fence>, o: nat): Option<Fence>
    requires i <= o <= |text|
    decreases o - i
  {
    if i == o || NextLine(text, i) > o then open
    else StateAt(text, NextLine(text, i), Step(Line(text, i), open).1, o)
  }

  /** The line after one that starts before line start `o` starts no later
      than `o`. */
  lemma NextLineBefore(text: string, i: nat, o: nat)
    requires i < o && IsLineStart(text, o)
    ensures NextLine(text, i) <= o
  {
    if o < |text| {
      assert text[o - 1] == '\n';
    }
  }

  /** Masking from line start `i` and looking from line start `o` on is
      masking from `o` under the state reached there. */
  lemma {:induction false} MaskSuffix(text: string, i: nat, open: Option<Fence>, o: nat)
    requires i <= o && IsLineStart(text, o)
    ensures MaskFrom(text, i, open)[o - i..] == MaskFrom(text, o, StateAt(text, i, open, o))
    decreases o - i
  {
    if i < o {
      NextLineBefore(text, i, o);
      var n := NextLine(text, i);
      var step := Step(Line(text, i), open);
      MaskSuffix(text, n, step.1, o);
      var m := MaskFrom(text, i, open);
      var rest := MaskFrom(text, n, step.1);
      assert m == Fill(step.0, n - i) + rest;
      assert m[o - i..] == rest[o - n..];
      assert StateAt(text, i, open, o) == StateAt(text, n, step.1, o);
    }
  }

  /** No line starting in `(o, c)` closes `f`. */
  predicate NoCloserBetween(text: string, o: nat, c: nat, f: Fence)
    requires c <= |text|
  {
    forall l :: o < l < c && IsLineStart(text, l) ==> !ClosesFence(Line(text, l), f)
  }

  /** Inside an open fence every line up to line start `c` is masked and the
      fence stays open. */
  lemma {:induction false} InsideMasked(text: string, i: nat, c: nat, f: Fence)
    requires i <= c && IsLineStart(text, c)
    requires i < c ==> !ClosesFence(Line(text, i), f)
    requires NoCloserBetween(text, i, c, f)
    ensures forall j :: 0 <= j < c - i ==> MaskFrom(text, i, Some(f))[j]
    ensures StateAt(text, i, Some(f), c) == Some(f)
    decreases c - i
  {
    if i < c {
      NextLineBefore(text, i, c);
      var n := NextLine(text, i);
      InsideMasked(text, n, c, f);
      var m := MaskFrom(text, i, Some(f));
      var rest := MaskFrom(text, n, Some(f));
      assert m == Fill(true, n - i) + rest;
      forall j | 0 <= j < c - i ensures m[j] {
        if j >= n - i { assert m[j] == rest[j - (n - i)]; }
      }
      assert StateAt(text, i, Some(f), c) == StateAt(text, n, Some(f), c);
    }
  }

  /** Reaching `b` through line start `a` is reaching `a`, then `b` from there. */
  lemma {:induction false} StateAtSplit(text: string, i: nat, open: Option<Fence>, a: nat, b: nat)
    requires i <= a <= b && IsLineStart(text, a) && IsLineStart(text, b)
    ensures StateAt(text, i, open, b) == StateAt(text, a, StateAt(text, i, open, a), b)
    decreases a - i
  {
    if i < a {
      NextLineBefore(text, i, a);
      NextLineBefore(text, i, b);
      StateAtSplit(text, NextLine(text, i), Step(Line(text, i), open).1, a, b);
    }
  }

  /** The closing line of an open fence is masked, newline included, and
      closes the fence. */
  lemma CloserMasked(text: string, c: nat, f: Fence)
    requires IsLineStart(text, c) && c < |text| && ClosesFence(Line(text, c), f)
    ensures forall j :: 0 <= j < NextLine(text, c) - c ==> MaskFrom(text, c, Some(f))[j]
    ensures StateAt(text, c, Some(f), NextLine(text, c)) == None
  {
    var nc := NextLine(text, c);
    var rest := MaskFrom(text, nc, None);
    assert Step(Line(text, c), Some(f)) == (true, None);
    assert MaskFrom(text, c, Some(f)) == Fill(true, nc - c) + rest;
  }

  /** From an opening fence line through the closing line of its block,
      everything is masked, and no fence is open afterwards. */
  lemma {:induction false} BlockMasked(text: string, o: nat, c: nat, f: Fence)
    requires IsLineStart(text, o) && o < c && IsLineStart(text, c) && c < |text|
    requires OpeningFence(Line(text, o)) == Some(f)
    requires NoCloserBetween(text, o, c, f)
    requires ClosesFence(Line(text, c), f)
    ensures forall j :: 0 <= j < NextLine(text, c) - o ==> MaskFrom(text, o, None)[j]
    ensures StateAt(text, o, None, NextLine(text, c)) == None
  {
    NextLineBefore(text, o, c);
    var n := NextLine(text, o);
    var nc := NextLine(text, c);
    var mo := MaskFrom(text, o, None);
    var mn := MaskFrom(text, n, Some(f));
    assert Step(Line(text, o), None) == (true, Some(f));
    assert mo == Fill(true, n - o) + mn;
    InsideMasked(text, n, c, f);
    MaskSuffix(text, n, Some(f), c);
    CloserMasked(text, c, f);
    var mc := MaskFrom(text, c, Some(f));
    assert mn[c - n..] == mc;
    forall j | 0 <= j < nc - o ensures mo[j] {
      if j >= n - o {
        assert mo[j] == mn[j - (n - o)];
        if j - (n - o) >= c - n {
          assert mn[j - (n - o)] == mc[j - (c - o)];
        }
      }
    }
    assert StateAt(text, o, None, nc) == StateAt(text, n, Some(f), nc);
    StateAtSplit(text, n, Some(f), c, nc);
  }

  /** A fenced block opened at line start `o`, outside any fence, and closed
      by the line starting at `c`, is masked from its opening fence to the
      end of its closing line; after it no fence is open. */
  lemma FencedBlockMasked(text: string, o: nat, c: nat, f: Fence)
    requires IsLineStart(text, o) && o < c && IsLineStart(text, c) && c < |text|
    requires StateAt(text, 0, None, o) == None
    requires OpeningFence(Line(text, o)) == Some(f)
    requires NoCloserBetween(text, o, c, f)
    requires ClosesFence(Line(text, c), f)
    ensures forall k :: o <= k < NextLine(text, c) ==> FenceMask(text)[k]
    ensures StateAt(text, 0, None, NextLine(text, c)) == None
  {
    MaskSuffix(text, 0, None, o);
    BlockMasked(text, o, c, f);
    var mo := MaskFrom(text, o, None);
    assert FenceMask(text)[o..] == mo;
    forall k | o <= k < NextLine(text, c) ensures FenceMask(text)[k] {
      assert FenceMask(text)[k] == mo[k - o];
    }
    StateAtSplit(text, 0, None, o, NextLine(text, c));
  }

  /** From an opening fence line that is never closed, everything to the end
      of the text is masked. */
  lemma OpenedMasked(text: string, o: nat, f: Fence)
    requires IsLineStart(text, o) && o < |text|
    requires OpeningFence(Line(text, o)) == Some(f)
    requires NoCloserBetween(text, o, |text|, f)
    ensures forall j :: 0 <= j < |text| - o ==> MaskFrom(text, o, None)[j]
  {
    var n := NextLine(text, o);
    var mo := MaskFrom(text, o, None);
    var mn := MaskFrom(text, n, Some(f));
    assert Step(Line(text, o), None) == (true, Some(f));
    assert mo == Fill(true, n - o) + mn;
    InsideMasked(text, n, |text|, f);
    forall j | 0 <= j < |text| - o ensures mo[j] {
      if j >= n - o {
        assert mo[j] == mn[j - (n - o)];
      }
    }
  }

  /** A fenced block opened at line start `o`, outside any fence, and never
      closed, is masked to the end of the text. */
  lemma UnclosedFenceMasked(text: string, o: nat, f: Fence)
    requires IsLineStart(text, o) && o < |text|
    requires StateAt(text, 0, None, o) == None
    requires OpeningFence(Line(text, o)) == Some(f)
    requires NoCloserBetween(text, o, |text|, f)
    ensures forall k :: o <= k < |text| ==> FenceMask(text)[k]
  {
    MaskSuffix(text, 0, None, o);
    OpenedMasked(text, o, f);
    var mo := MaskFrom(text, o, None);
    assert FenceMask(text)[o..] == mo;
    forall k | o <= k < |text| ensures FenceMask(text)[k] {
      assert FenceMask(text)[k] == mo[k - o];
    }
  }

  /** No line starting at or after `i` starts with a fence character. */
  predicate NoFenceLineFrom(text: string, i: nat) {
    forall l :: i <= l < |text| && IsLineStart(text, l) ==> !IsFenceChar(text[l])
  }

  /** Text in which no line starts with a backtick or tilde has no fenced
      block: nothing in it is masked. */
  lemma {:induction false} NoFenceNoMask(text: string, i: nat)
    requires IsLineStart(text, i) && NoFenceLineFrom(text, i)
    ensures MaskFrom(text, i, None) == Fill(false, |text| - i)
    decreases |text| - i
  {
    if i < |text| {
      var line := Line(text, i);
      assert OpeningFence(line) == None by {
        if line != [] {
          assert line[0] == text[i];
        }
      }
      NoFenceNoMask(text, NextLine(text, i));
    }
  }

  /** The start of the line holding position `k`. */
  function LineStartOf(text: string, k: nat): (s: nat)
    requires k < |text|
    ensures s <= k && IsLineStart(text, s)
    ensures forall j :: s <= j < k ==> text[j] != '\n'
    decreases k
  {
    if k == 0 || text[k - 1] == '\n' then k else LineStartOf(text, k - 1)
  }

  /** The line of a position is the line starting at any line start before
      it with no newline in between. */
  lemma {:induction false} LineStartOfIn(text: string, s: nat, k: nat)
    requires IsLineStart(text, s) && s <= k < |text|
    requires forall j :: s <= j < k ==> text[j] != '\n'
    ensures LineStartOf(text, k) == s
    decreases k - s
  {
    if s < k {
      assert text[k - 1] != '\n';
      LineStartOfIn(text, s, k - 1);
    }
  }

  lemma {:induction false} LineEndAtLeast(text: string, s: nat, k: nat)
    requires s <= k <= |text|
    requires forall j :: s <= j < k ==> text[j] != '\n'
    ensures LineEnd(text, s) >= k
    decreases k - s
  {
    if s < k {
      LineEndAtLeast(text, s + 1, k);
    }
  }

  /** A position lies on the line of its line start. */
  lemma OnItsLine(text: string, k: nat)
    requires k < |text|
    ensures k < NextLine(text, LineStartOf(text, k))
  {
    LineEndAtLeast(text, LineStartOf(text, k), k);
  }

  /** A position is masked exactly when its line lies in a block still
      open there (its closing line included) or opens a block. */
  lemma MaskExact(text: string, k: nat)
    requires k < |text|
    ensures var s := LineStartOf(text, k);
            FenceMask(text)[k]
            <==> StateAt(text, 0, None, s).Some? || OpeningFence(Line(text, s)).Some?
  {
    var s := LineStartOf(text, k);
    OnItsLine(text, k);
    MaskSuffix(text, 0, None, s);
    var mf := MaskFrom(text, 0, None);
    var st := StateAt(text, 0, None, s);
    assert mf[s..] == MaskFrom(text, s, st);
    LineMask(text, s, st, k - s);
    assert mf[k] == mf[s..][k - s];
  }

  /** Every position of a line is masked alike: when a fence is open at
      its start or the line opens one. */
  lemma LineMask(text: string, s: nat, open: Option<Fence>, j: nat)
    requires s < |text| && j < NextLine(text, s) - s
    ensures MaskFrom(text, s, open)[j] <==> open.Some? || OpeningFence(Line(text, s)).Some?
  {
    var n := NextLine(text, s);
    var step := Step(Line(text, s), open);
    var head := Fill(step.0, n - s);
    assert MaskFrom(text, s, open) == head + MaskFrom(text, n, step.1);
    assert MaskFrom(text, s, open)[j] == head[j];
  }

  /** No line starting in `[i, o)` closes `f`. */
  predicate NoCloserFrom(text: string, i: nat, o: nat, f: Fence)
    requires o <= |text|
  {
    forall l :: i <= l < o && IsLineStart(text, l) ==> !ClosesFence(Line(text, l), f)
  }

  /** No line starts strictly between a line start and the next one. */
  lemma NoLineStartWithin(text: string, i: nat, l: nat)
    requires i < |text| && i < l < NextLine(text, i)
    ensures !IsLineStart(text, l)
  {
    assert l - 1 < LineEnd(text, i);
  }

  /** A fence open at line start `o` was open already at `i` and never
      closed since, or was opened by a line at or after `i`, reached with
      no fence open, and not closed since. */
  lemma {:induction false} OpenFenceOrigin(text: string, i: nat, open: Option<Fence>, o: nat, f: Fence)
    requires IsLineStart(text, i) && i <= o && IsLineStart(text, o)
    requires StateAt(text, i, open, o) == Some(f)
    ensures (open == Some(f) && NoCloserFrom(text, i, o, f))
            || exists b :: i <= b < o && IsLineStart(text, b) && StateAt(text, i, open, b) == None
                           && OpeningFence(Line(text, b)) == Some(f) && NoCloserBetween(text, b, o, f)
    decreases o - i
  {
    if i < o {
      NextLineBefore(text, i, o);
      var n := NextLine(text, i);
      var step := Step(Line(text, i), open);
      assert StateAt(text, i, open, o) == StateAt(text, n, step.1, o);
      OpenFenceOrigin(text, n, step.1, o, f);
      forall l | i < l < n ensures !IsLineStart(text, l) {
        NoLineStartWithin(text, i, l);
      }
      if step.1 == Some(f) && NoCloserFrom(text, n, o, f) {
        if open.None? {
          assert StateAt(text, i, open, i) == None;
        }
      } else {
        var b :| n <= b < o && IsLineStart(text, b) && StateAt(text, n, step.1, b) == None
                 && OpeningFence(Line(text, b)) == Some(f) && NoCloserBetween(text, b, o, f);
        NextLineBefore(text, i, b);
        assert StateAt(text, i, open, b) == StateAt(text, n, step.1, b);
      }
    }
  }

  /** Every masked position lies in a fenced block: some line at or before
      its own, reached with no fence open, opens a fence that no line after
      it closes before the position's line. */
  lemma MaskedInBlock(text: string, k: nat)
    requires k < |text| && FenceMask(text)[k]
    ensures exists o, f :: o <= LineStartOf(text, k) && IsLineStart(text, o)
                           && StateAt(text, 0, None, o) == None
                           && OpeningFence(Line(text, o)) == Some(f)
                           && NoCloserBetween(text, o, LineStartOf(text, k), f)
  {
    var s := LineStartOf(text, k);
    MaskExact(text, k);
    match StateAt(text, 0, None, s)
    case Some(f) =>
      OpenFenceOrigin(text, 0, None, s, f);
    case None =>
      var f := OpeningFence(Line(text, s)).value;
      assert NoCloserBetween(text, s, s, f);
  }

  /** A line of three backticks, a tag not starting with a backtick, and
      three more backticks opens no fence. */
  lemma SnippetOpensNothing(tag: string)
    requires tag != [] && tag[0] != '`'
    ensures OpeningFence("```" + tag + "```") == None
  {
    var line := "```" + tag + "```";
    assert line[3..] == tag + "```";
    assert line[1..][1..][1..] == line[3..];
    assert RunOf(line[3..], '`') == 0;
    assert RunOf(line, '`') == 3;
    assert line[|line| - 1] == '`';
    assert line[3..][|line| - 4] == '`';
  }

  /** A one-line snippet ```` ```tag``` ```` does not mask the line after it. */
  lemma SnippetLeavesNextLine(tag: string, next: string)
    requires tag != [] && tag[0] != '`' && '\n' !in tag
    requires '\n' !in next && (next == [] || !IsFenceChar(next[0]))
    ensures var text := "```" + tag + "```" + "\n" + next;
            forall k :: |tag| + 7 <= k < |text| ==> !FenceMask(text)[k]
  {
    var line := "```" + tag + "```";
    var text := line + "\n" + next;
    var s := |line| + 1;
    assert forall j :: 0 <= j < |line| ==> text[j] == line[j];
    assert forall j :: s <= j < |text| ==> text[j] == next[j - s];
    assert text[s - 1] == '\n';
    LineEndAtLeast(text, 0, |line|);
    assert LineEnd(text, 0) == |line|;
    assert Line(text, 0) == line;
    SnippetOpensNothing(tag);
    assert StateAt(text, 0, None, s) == StateAt(text, s, None, s) == None;
    forall k | s <= k < |text| ensures !FenceMask(text)[k] {
      LineStartOfIn(text, s, k);
      MaskExact(text, k);
      assert Line(text, s) == [] || Line(text, s)[0] == next[0];
    }
  }
}

=== FILE: frontmatter.dfy ===
/** Front-matter aliases. A note may open with a metadata block: a first
    line that is exactly `---`, then key lines, then another `---` line.
    The only key read here is `aliases`, written as a flow list
    `aliases: [first, second]`; its items are trimmed and blank items are
    dropped. A missing or unterminated block, or an `aliases` value that is
    not a bracketed list, yields no aliases: malformed front matter is
    never an error. */
module FrontMatter {
  import opened Wrappers
  import opened Strings

  const Delimiter: string := "---"
  const AliasKey: string := "aliases:"

  /** A name usable as an alias: non-empty, trimmed, and free of the list
      separator and of line breaks. */
  predicate IsAliasName(a: string) {
    a != [] && IsTrimmed(a) && IsItemText(a)
  }

  /** Text that can sit between two list separators on one line. */
  predicate IsItemText(s: string) {
    ',' !in s && '\n' !in s
  }

  /** The index of the first `---` line at or after `j`. */
  function FindDelimiter(lines: seq<string>, j: nat): (r: Option<nat>)
    requires j <= |lines|
    ensures r.Some? ==> j <= r.value < |lines| && lines[r.value] == Delimiter
    ensures r.Some? ==> forall k :: j <= k < r.value ==> lines[k] != Delimiter
    ensures r.None? ==> forall k :: j <= k < |lines| ==> lines[k] != Delimiter
    decreases |lines| - j
  {
    if j == |lines| then None
    else if lines[j] == Delimiter then Some(j)
    else FindDelimiter(lines, j + 1)
  }

  /** The key lines of the front-matter block, if the text opens with a
      complete one. */
  function Block(text: string): (b: Option<seq<string>>)
    ensures b.Some? ==> var lines := Split(text, '\n');
      |b.value| + 1 < |lines| && lines[0] == Delimiter && lines[|b.value| + 1] == Delimiter
      && b.value == lines[1..|b.value| + 1]
      && forall k :: 0 <= k < |b.value| ==> b.value[k] != Delimiter
  {
    var lines := Split(text, '\n');
    if lines[0] != Delimiter then None
    else match FindDelimiter(lines, 1)
      case None => None
      case Some(c) => Some(lines[1..c])
  }

  /** The value of the first `aliases:` line of a block, after the key. */
  function AliasValue(block: seq<string>): (v: Option<string>)
    ensures v.Some? ==> exists k :: 0 <= k < |block| && StartsWith(block[k], AliasKey)
                                    && (forall j :: 0 <= j < k ==> !StartsWith(block[j], AliasKey))
                                    && v.value == block[k][|AliasKey|..]
    ensures v.None? ==> forall k :: 0 <= k < |block| ==> !StartsWith(block[k], AliasKey)
  {
    if block == [] then None
    else if StartsWith(block[0], AliasKey) then Some(block[0][|AliasKey|..])
    else
      var v := AliasValue(block[1..]);
      assert v.Some? ==> exists k :: 1 <= k < |block| && StartsWith(block[k], AliasKey)
                                     && (forall j :: 0 <= j < k ==> !StartsWith(block[j], AliasKey))
                                     && v.value == block[k][|AliasKey|..] by {
        if v.Some? {
          var k :| 0 <= k < |block[1..]| && StartsWith(block[1..][k], AliasKey)
                   && (forall j :: 0 <= j < k ==> !StartsWith(block[1..][j], AliasKey))
                   && v.value == block[1..][k][|AliasKey|..];
          assert block[k + 1] == block[1..][k];
          forall j | 0 <= j < k + 1 ensures !StartsWith(block[j], AliasKey) {
            if j > 0 { assert block[j] == block[1..][j - 1]; }
          }
        }
      }
      v
  }

  /** The trimmed, non-blank items among `items`, in order. */
  function TrimItems(items: seq<string>): (r: seq<string>)
    requires forall i :: 0 <= i < |items| ==> IsItemText(items[i])
    ensures |r| <= |items|
    ensures forall k :: 0 <= k < |r| ==> IsAliasName(r[k])
  {
    if items == [] then []
    else
      var t := Trim(items[0]);
      TrimItemText(items[0]);
      assert forall i :: 0 <= i < |items| - 1 ==> items[1..][i] == items[i + 1];
      var rest := TrimItems(items[1..]);
      if t == [] then rest
      else
        assert forall k :: 0 < k <= |rest| ==> ([t] + rest)[k] == rest[k - 1];
        [t] + rest
  }

  /** Two pieces that do not trim to nothing are both kept. */
  lemma TrimPair(x: string, y: string)
    requires IsItemText(x) && IsItemText(y) && Trim(x) != [] && Trim(y) != []
    ensures TrimItems([x, y]) == [Trim(x), Trim(y)]
  {
    assert [x, y][1..] == [y] && [y][1..] == [];
  }

  /** Trimming keeps item text item text. */
  lemma TrimItemText(s: string)
    requires IsItemText(s)
    ensures IsItemText(Trim(s))
  {
    var r := Trim(s);
    var i := TrimPadding(s);
    forall k | 0 <= k < |r| ensures r[k] != ',' && r[k] != '\n' {
      assert r[k] == s[i + k];
    }
  }

  /** The comma-separated pieces of the inside of a list. */
  function ListPieces(inner: string): (pieces: seq<string>)
    requires '\n' !in inner
    ensures |pieces| >= 1 && Join(pieces, ',') == inner
    ensures forall i :: 0 <= i < |pieces| ==> IsItemText(pieces[i])
  {
    var pieces := Split(inner, ',');
    assert forall i :: 0 <= i < |pieces| ==> '\n' !in pieces[i] by {
      forall i | 0 <= i < |pieces| && '\n' in pieces[i] ensures false {
        JoinContains(pieces, ',', i, '\n');
      }
    }
    pieces
  }

  /** The items of a trimmed value written as `[a, b, ...]`; any other
      value has none. */
  function ListItems(v: string): (items: seq<string>)
    requires '\n' !in v
    ensures forall k :: 0 <= k < |items| ==> IsAliasName(items[k])
  {
    if |v| >= 2 && v[0] == '[' && v[|v| - 1] == ']' then
      TrimItems(ListPieces(v[1..|v| - 1]))
    else []
  }

  /** The items of a flow-list value, surrounding whitespace ignored. */
  function FlowList(value: string): (items: seq<string>)
    requires '\n' !in value
    ensures forall k :: 0 <= k < |items| ==> IsAliasName(items[k])
  {
    TrimKeepsOut(value, '\n');
    ListItems(Trim(value))
  }

  /** The aliases a note declares in its front matter, in order. */
  function Aliases(text: string): (aliases: seq<string>)
    ensures forall k :: 0 <= k < |aliases| ==> IsAliasName(aliases[k])
  {
    match Block(text)
    case None => []
    case Some(block) =>
      match AliasValue(block)
      case None => []
      case Some(v) =>
        assert '\n' !in v by {
          var lines := Split(text, '\n');
          var k :| 0 <= k < |block| && StartsWith(block[k], AliasKey) && v == block[k][|AliasKey|..];
          assert block[k] == lines[k + 1];
          assert forall c :: c in v ==> c in block[k];
        }
        FlowList(v)
  }

  /** A text that does not open with a `---` line declares no aliases. */
  lemma NoFrontMatter(text: string)
    requires !StartsWith(text, Delimiter + "\n")
    ensures Aliases(text) == []
  {
  }

  /** A block whose first key line is `line` yields the flow list after its
      key, whatever follows the block. */
  lemma HeaderAliases(line: string, body: string)
    requires '\n' !in line && line != Delimiter && StartsWith(line, AliasKey)
    ensures '\n' !in line[|AliasKey|..]
    ensures Aliases(Delimiter + "\n" + line + "\n" + Delimiter + "\n" + body)
            == FlowList(line[|AliasKey|..])
  {
    var text := Delimiter + "\n" + line + "\n" + Delimiter + "\n" + body;
    HeaderLines(line, body);
    HeaderBlock(text, line);
    assert forall c :: c in line[|AliasKey|..] ==> c in line;
  }

  lemma HeaderLines(line: string, body: string)
    requires '\n' !in line
    ensures Split(Delimiter + "\n" + line + "\n" + Delimiter + "\n" + body, '\n')
            == [Delimiter, line, Delimiter] + Split(body, '\n')
  {
    var rest2 := Delimiter + "\n" + body;
    var rest1 := line + "\n" + rest2;
    assert Delimiter + "\n" + line + "\n" + Delimiter + "\n" + body == Delimiter + ['\n'] + rest1;
    assert rest1 == line + ['\n'] + rest2;
    assert rest2 == Delimiter + ['\n'] + body;
    SplitCons(Delimiter, '\n', rest1);
    SplitCons(line, '\n', rest2);
    SplitCons(Delimiter, '\n', body);
  }

  lemma HeaderBlock(text: string, line: string)
    requires line != Delimiter && StartsWith(line, AliasKey)
    requires |Split(text, '\n')| >= 3
    requires Split(text, '\n')[..3] == [Delimiter, line, Delimiter]
    ensures Block(text) == Some([line])
    ensures AliasValue([line]) == Some(line[|AliasKey|..])
  {
    var lines := Split(text, '\n');
    assert lines[0] == Delimiter && lines[1] == line && lines[2] == Delimiter;
    assert FindDelimiter(lines, 1) == Some(2);
    assert lines[1..2] == [line];
  }

  /** Trimming a list of alias names gives them back. */
  lemma {:induction false} TrimItemsOfNames(names: seq<string>)
    requires forall i :: 0 <= i < |names| ==> IsAliasName(names[i])
    ensures forall i :: 0 <= i < |names| ==> IsItemText(names[i])
    ensures TrimItems(names) == names
    decreases |names|
  {
    if names != [] {
      TrimOfTrimmed(names[0]);
      TrimItemsKeep(names);
      TrimItemsOfNames(names[1..]);
      assert names == [names[0]] + names[1..];
    }
  }

  /** A first item that trims to something is kept, trimmed. */
  lemma TrimItemsKeep(items: seq<string>)
    requires items != [] && forall i :: 0 <= i < |items| ==> IsItemText(items[i])
    requires Trim(items[0]) != []
    ensures forall i :: 0 <= i < |items| - 1 ==> IsItemText(items[1..][i])
    ensures TrimItems(items) == [Trim(items[0])] + TrimItems(items[1..])
  {
    assert forall i :: 0 <= i < |items| - 1 ==> items[1..][i] == items[i + 1];
  }

  /** A bracketed list of separator-free pieces yields the pieces trimmed,
      blanks dropped. */
  lemma FlowListOfPieces(pieces: seq<string>)
    requires |pieces| >= 1
    requires forall i :: 0 <= i < |pieces| ==> IsItemText(pieces[i])
    requires IsTrimmed("[" + Join(pieces, ',') + "]")
    requires '\n' !in Join(pieces, ',')
    ensures '\n' !in "[" + Join(pieces, ',') + "]"
    ensures FlowList("[" + Join(pieces, ',') + "]") == TrimItems(pieces)
  {
    var joined := Join(pieces, ',');
    var v := "[" + joined + "]";
    Bracketed(joined);
    SplitJoin(pieces, ',');
    FlowListBracketed(v);
    ListPiecesSplit(joined);
  }

  /** A trimmed bracketed value lists the trimmed pieces of its interior. */
  lemma FlowListBracketed(v: string)
    requires IsTrimmed(v) && |v| >= 2 && v[0] == '[' && v[|v| - 1] == ']' && '\n' !in v
    ensures '\n' !in v[1..|v| - 1]
    ensures FlowList(v) == TrimItems(ListPieces(v[1..|v| - 1]))
  {
    TrimOfTrimmed(v);
    ListItemsBracketed(v);
  }

  /** A bracketed value lists the trimmed pieces of its interior. */
  lemma ListItemsBracketed(v: string)
    requires |v| >= 2 && v[0] == '[' && v[|v| - 1] == ']' && '\n' !in v
    ensures '\n' !in v[1..|v| - 1]
    ensures ListItems(v) == TrimItems(ListPieces(v[1..|v| - 1]))
  {
    var inner := v[1..|v| - 1];
    forall k | 0 <= k < |inner| ensures inner[k] != '\n' {
      assert inner[k] == v[k + 1];
    }
  }

  lemma ListPiecesSplit(inner: string)
    requires '\n' !in inner
    ensures ListPieces(inner) == Split(inner, ',')
  {
  }

  /** Surrounding whitespace does not change a flow list. */
  lemma FlowListTrim(value: string)
    requires '\n' !in value
    ensures '\n' !in Trim(value)
    ensures FlowList(Trim(value)) == FlowList(value)
  {
    TrimKeepsOut(value, '\n');
    TrimIdempotent(value);
  }

  /** The front matter that declares `names` as aliases. */
  function Render(names: seq<string>): string
  {
    Delimiter + "\n" + AliasKey + " [" + Join(names, ',') + "]\n" + Delimiter + "\n"
  }

  /** Reading back rendered front matter gives the declared aliases, in
      order, whatever body follows it. */
  lemma AliasesRoundTrip(names: seq<string>, body: string)
    requires forall i :: 0 <= i < |names| ==> IsAliasName(names[i])
    ensures Aliases(Render(names) + body) == names
  {
    var list := "[" + Join(names, ',') + "]";
    ListAliases(names);
    var line := KeyLine(list);
    RenderedHeader(names, body);
    HeaderAliases(line, body);
    PaddedList(list);
  }

  /** The `aliases:` line that declares `list`. */
  function KeyLine(list: string): (line: string)
    requires '\n' !in list
    ensures '\n' !in line && line != Delimiter && StartsWith(line, AliasKey)
    ensures line[|AliasKey|..] == " " + list
  {
    var line := AliasKey + " " + list;
    assert line[..|AliasKey|] == AliasKey;
    assert line[1] != Delimiter[1];
    line
  }

  lemma RenderedHeader(names: seq<string>, body: string)
    requires '\n' !in "[" + Join(names, ',') + "]"
    ensures Render(names) + body
            == Delimiter + "\n" + KeyLine("[" + Join(names, ',') + "]") + "\n" + Delimiter + "\n" + body
  {
  }

  lemma PaddedList(list: string)
    requires '\n' !in list && IsTrimmed(list) && list != []
    ensures '\n' !in " " + list
    ensures FlowList(" " + list) == FlowList(list)
  {
    TrimPadded(" ", list, "");
    assert " " + list + "" == " " + list;
    FlowListTrim(" " + list);
  }

  /** A list of two names written with a space after the comma,
      `[x, y]`, reads back as the two names. */
  lemma SpacedPairList(x: string, y: string)
    requires IsAliasName(x) && IsAliasName(y)
    ensures '\n' !in "[" + x + ", " + y + "]" && IsTrimmed("[" + x + ", " + y + "]")
    ensures FlowList("[" + x + ", " + y + "]") == [x, y]
  {
    SpacedPieces(x, y);
    FlowListOfPieces([x, " " + y]);
    TrimOfTrimmed(x);
    SpacedTrim(y);
    TrimPair(x, " " + y);
  }

  lemma SpacedPieces(x: string, y: string)
    requires IsAliasName(x) && IsAliasName(y)
    ensures IsItemText(" " + y)
    ensures "[" + Join([x, " " + y], ',') + "]" == "[" + x + ", " + y + "]"
    ensures '\n' !in Join([x, " " + y], ',')
    ensures IsTrimmed("[" + x + ", " + y + "]")
  {
    var sy := " " + y;
    assert forall k :: 0 <= k < |sy| && k > 0 ==> sy[k] == y[k - 1];
    assert [x, sy][1..] == [sy] && Join([sy], ',') == sy;
    var joined := Join([x, sy], ',');
    assert joined == x + [','] + sy;
    assert forall k :: 0 <= k < |x| ==> joined[k] == x[k];
    assert forall k :: |x| < k < |joined| ==> joined[k] == sy[k - |x| - 1];
  }

  lemma SpacedTrim(y: string)
    requires IsAliasName(y)
    ensures Trim(" " + y) == y
  {
    TrimPadded(" ", y, "");
    assert " " + y + "" == " " + y;
  }

  /** A rendered list reads back as its names. */
  lemma ListAliases(names: seq<string>)
    requires forall i :: 0 <= i < |names| ==> IsAliasName(names[i])
    ensures '\n' !in "[" + Join(names, ',') + "]"
    ensures IsTrimmed("[" + Join(names, ',') + "]")
    ensures FlowList("[" + Join(names, ',') + "]") == names
  {
    JoinedNames(names);
    Bracketed(Join(names, ','));
    if names == [] {
      EmptyList();
    } else {
      FlowListOfPieces(names);
      TrimItemsOfNames(names);
    }
  }

  lemma JoinedNames(names: seq<string>)
    requires forall i :: 0 <= i < |names| ==> IsAliasName(names[i])
    ensures '\n' !in Join(names, ',')
  {
    if names != [] {
      forall i | 0 <= i < |names| ensures '\n' !in names[i] { }
      JoinFree(names, ',', '\n');
    }
  }

  lemma Bracketed(inner: string)
    requires '\n' !in inner
    ensures '\n' !in "[" + inner + "]" && IsTrimmed("[" + inner + "]")
    ensures ("[" + inner + "]")[1..|inner| + 1] == inner
  {
    var list := "[" + inner + "]";
    assert list[0] == '[' && list[|list| - 1] == ']';
    assert forall k :: 0 < k < |list| - 1 ==> list[k] == inner[k - 1];
  }

  /** An empty list has no items. */
  lemma EmptyList()
    ensures "[" + Join([], ',') + "]" == "[]"
    ensures FlowList("[]") == []
  {
    var v := "[]";
    assert v[1..|v| - 1] == [];
    assert Split([], ',') == [[]];
    assert IsTrimmed(v) && '\n' !in v;
    FlowListBracketed(v);
    ListPiecesSplit([]);
    assert Trim([]) == [];
  }
}

=== FILE: identity.dfy ===
/** Notes, their names, and the identity of the note whose backlinks are
    sought. A vault is the sequence of its notes, each with its
    vault-relative path (`/` between folders) and its text. A note is known
    by its base name (the file name without `.md`) and by every alias its
    front matter declares; a link refers to it when the link's normalized
    reference equals one of those names exactly. */
module Identity {
  import opened Wrappers
  import opened Strings
  import opened FrontMatter
  import opened LinkRefs

  /** One note of the vault. */
  datatype Doc = Doc(path: string, content: string)

  /** Why no backlinks could be computed. */
  datatype Error = TargetNotFound(path: string)

  const PathSeparator: char := '/'

  /** The file name of a path: its last segment. */
  function FileName(path: string): (name: string)
    ensures EndsWith(path, name) && PathSeparator !in name
    ensures |name| < |path| ==> path[|path| - |name| - 1] == PathSeparator
  {
    LastSegment(path, PathSeparator)
  }

  /** The name a note is linked by: its file name without `.md`. */
  function BaseName(path: string): (name: string)
    ensures PathSeparator !in name
    ensures EndsWith(FileName(path), Extension) ==> name + Extension == FileName(path)
    ensures !EndsWith(FileName(path), Extension) ==> name == FileName(path)
  {
    var file := FileName(path);
    var name := StripSuffix(file, Extension);
    assert PathSeparator !in name by {
      if EndsWith(file, Extension) {
        assert forall k :: 0 <= k < |name| ==> name[k] == file[k];
      }
    }
    name
  }

  /** A note named `name` at the top of the vault or inside folder `dir`
      has base name `name` and file name `name.md`. */
  lemma NamesOfNote(dir: string, name: string)
    requires PathSeparator !in name
    ensures FileName(name + Extension) == name + Extension
    ensures FileName(dir + [PathSeparator] + name + Extension) == name + Extension
    ensures BaseName(name + Extension) == name
    ensures BaseName(dir + [PathSeparator] + name + Extension) == name
  {
    var file := name + Extension;
    assert PathSeparator !in file by {
      forall k | 0 <= k < |file| ensures file[k] != PathSeparator {
        if k < |name| { assert file[k] == name[k]; }
      }
    }
    LastSegmentWhole(file, PathSeparator);
    assert dir + [PathSeparator] + name + Extension == dir + [PathSeparator] + file;
    LastSegmentAfter(dir, PathSeparator, file);
    StripSuffixAppended(name, Extension);
  }

  /** The paths of a vault's notes. */
  function Paths(vault: seq<Doc>): (ps: seq<string>)
    ensures |ps| == |vault| && forall i :: 0 <= i < |vault| ==> ps[i] == vault[i].path
  {
    if vault == [] then [] else [vault[0].path] + Paths(vault[1..])
  }

  /** The first note at exactly `path`, if there is one. */
  function Find(vault: seq<Doc>, path: string): (r: Option<Doc>)
    ensures r.Some? ==> r.value in vault && r.value.path == path
    ensures r.None? <==> path !in Paths(vault)
  {
    if vault == [] then None
    else if vault[0].path == path then Some(vault[0])
    else
      var r := Find(vault[1..], path);
      assert Paths(vault) == [vault[0].path] + Paths(vault[1..]);
      r
  }

  /** The note found at a path is the first one there. */
  lemma {:induction false} FindAt(vault: seq<Doc>, i: nat, path: string)
    requires i < |vault| && vault[i].path == path
    requires forall j :: 0 <= j < i ==> vault[j].path != path
    ensures Find(vault, path) == Some(vault[i])
    decreases i
  {
    if i > 0 {
      FindAt(vault[1..], i - 1, path);
    }
  }

  const ExtensionSeparator: char := '.'

  /** The file name of `path` carries an extension: its last `.` is neither
      its first nor its last character. */
  predicate HasExtension(path: string) {
    var name := FileName(path);
    var ext := LastSegment(name, ExtensionSeparator);
    ExtensionSeparator in name && 0 < |ext| < |name| - 1
  }

  /** The note a requested target path names: the note at that path, or,
      when no note sits there and the path's file name has no extension,
      the note at the path with `.md` appended. */
  function ResolveTarget(vault: seq<Doc>, target: string): (r: Result<Doc, Error>)
    ensures r.Ok? ==> r.value in vault
    ensures r.Ok? ==> r.value.path == target
                      || (r.value.path == target + Extension && target !in Paths(vault)
                          && !HasExtension(target))
    ensures r.Err? <==> target !in Paths(vault)
                        && (HasExtension(target) || target + Extension !in Paths(vault))
    ensures r.Err? ==> r.error == TargetNotFound(target)
  {
    match Find(vault, target)
    case Some(doc) => Ok(doc)
    case None =>
      if HasExtension(target) then Err(TargetNotFound(target))
      else match Find(vault, target + Extension)
        case Some(doc) => Ok(doc)
        case None => Err(TargetNotFound(target))
  }

  /** A file name ending in `.md` after a non-empty stem has an extension,
      so such a target is never extended again. */
  lemma MarkdownHasExtension(dir: string, name: string)
    requires name != [] && PathSeparator !in name
    ensures HasExtension(name + Extension)
    ensures HasExtension(dir + [PathSeparator] + name + Extension)
  {
    NamesOfNote(dir, name);
    var file := name + Extension;
    assert file == name + [ExtensionSeparator] + "md";
    LastSegmentAfter(name, ExtensionSeparator, "md");
    assert file[|name|] == ExtensionSeparator;
  }

  /** The names a note answers to: its base name and its aliases. */
  function NoteIdentity(doc: Doc): (ids: set<string>)
    ensures BaseName(doc.path) in ids
    ensures forall a :: a in Aliases(doc.content) ==> a in ids
    ensures forall n :: n in ids ==> n == BaseName(doc.path) || n in Aliases(doc.content)
  {
    {BaseName(doc.path)} + set k | 0 <= k < |Aliases(doc.content)| :: Aliases(doc.content)[k]
  }

  /** A link token refers to a note with names `ids` when its normalized
      reference is one of those names, compared exactly. */
  predicate RefersTo(ids: set<string>, token: string) {
    match ParseLink(token)
    case None => false
    case Some(ref) => ref.normalized in ids
  }

  /** A note without front matter is referred to exactly by the links
      whose normalized reference is its base name; a longer name that
      merely starts with the base name does not refer to it. */
  lemma RefersExactly(doc: Doc, token: string)
    requires !StartsWith(doc.content, Delimiter + "\n")
    ensures RefersTo(NoteIdentity(doc), token)
            <==> ParseLink(token).Some? && ParseLink(token).value.normalized == BaseName(doc.path)
  {
    NoFrontMatter(doc.content);
  }
}

=== FILE: linkref.dfy ===
/** The link reference parser. The inner text of a link names its target
    before the first `|` (what follows is display text); the name is
    trimmed, and a trailing `.md` extension is dropped so that `[[note]]`
    and `[[note.md]]` name the same note. A name that is empty after
    trimming is discarded. */
module LinkRefs {
  import opened Wrappers
  import opened Strings

  /** The name as written in the link (trimmed) and the name it is matched
      by (the written name without a trailing `.md`). */
  datatype LinkRef = LinkRef(raw: string, normalized: string)

  const Extension: string := ".md"

  /** The part of a link's inner text that names its target. */
  function RawTarget(token: string): (raw: string)
    ensures IsTrimmed(raw) && '|' !in raw
  {
    Trim(BeforeFirst(token, '|'))
  }

  /** The note name a link matches by: the written name with one trailing
      `.md` removed. */
  function Normalize(raw: string): (n: string)
    ensures EndsWith(raw, Extension) ==> n + Extension == raw
    ensures !EndsWith(raw, Extension) ==> n == raw
  {
    StripSuffix(raw, Extension)
  }

  /** The reference a link token carries, or nothing when its target name
      is blank. */
  function ParseLink(token: string): (r: Option<LinkRef>)
    ensures r.Some? ==> r.value.raw != [] && IsTrimmed(r.value.raw) && '|' !in r.value.raw
    ensures r.Some? && EndsWith(r.value.raw, Extension) ==> r.value.normalized + Extension == r.value.raw
    ensures r.Some? && !EndsWith(r.value.raw, Extension) ==> r.value.normalized == r.value.raw
  {
    var raw := RawTarget(token);
    if raw == [] then None else Some(LinkRef(raw, Normalize(raw)))
  }

  /** A token carries no reference exactly when everything before its first
      `|` is whitespace; otherwise the written name is that piece with its
      surrounding whitespace removed. */
  lemma ParseLinkExact(token: string) returns (i: nat)
    ensures ParseLink(token).None? <==>
      forall k :: 0 <= k < |BeforeFirst(token, '|')| ==> IsSpace(BeforeFirst(token, '|')[k])
    ensures ParseLink(token).Some? ==> PaddedAt(BeforeFirst(token, '|'), i, ParseLink(token).value.raw)
  {
    var name := BeforeFirst(token, '|');
    i := TrimPadding(name);
    var raw := Trim(name);
    assert raw == RawTarget(token);
    if raw == [] {
      assert ParseLink(token).None?;
      forall k | 0 <= k < |name| ensures IsSpace(name[k]) {
      }
    } else {
      assert ParseLink(token).Some? && ParseLink(token).value.raw == raw;
      assert name[i] == raw[0] && !IsSpace(raw[0]);
    }
  }

  /** The normalized name a token refers to, if any. */
  function Reference(token: string): Option<string>
  {
    match ParseLink(token)
    case None => None
    case Some(ref) => Some(ref.normalized)
  }

  /** Display text after a `|` never changes the reference. */
  lemma PipeIgnored(name: string, display: string)
    requires '|' !in name
    ensures ParseLink(name + "|" + display) == ParseLink(name)
  {
    BeforeFirstSeparated(name, '|', display);
    assert BeforeFirst(name, '|') == name;
  }

  /** A trimmed, pipe-free name is its own raw target. */
  lemma PlainNameRaw(name: string)
    requires IsTrimmed(name) && '|' !in name
    ensures RawTarget(name) == name
  {
    assert BeforeFirst(name, '|') == name;
    TrimOfTrimmed(name);
  }

  /** `[[name]]` and `[[name.md]]` refer to the same note, `name`, when
      `name` is a trimmed, pipe-free, non-empty name. */
  lemma ExtensionIgnored(name: string)
    requires name != [] && IsTrimmed(name) && '|' !in name && !EndsWith(name, Extension)
    ensures Reference(name) == Some(name)
    ensures Reference(name + Extension) == Some(name)
  {
    PlainNameRaw(name);
    var full := name + Extension;
    assert full[|full| - 1] == 'd';
    assert IsTrimmed(full);
    assert '|' !in full by {
      assert forall k :: 0 <= k < |full| ==> full[k] == (if k < |name| then name[k] else Extension[k - |name|]);
    }
    PlainNameRaw(full);
    StripSuffixAppended(name, Extension);
  }

  /** Surrounding whitespace inside the brackets is ignored. */
  lemma PaddingIgnored(pre: string, name: string, post: string)
    requires name != [] && IsTrimmed(name) && '|' !in name
    requires forall k :: 0 <= k < |pre| ==> IsSpace(pre[k])
    requires forall k :: 0 <= k < |post| ==> IsSpace(post[k])
    ensures Reference(pre + name + post) == Reference(name)
  {
    var s := pre + name + post;
    assert '|' !in s by {
      forall k | 0 <= k < |s| ensures s[k] != '|' {
        if k < |pre| { assert IsSpace(pre[k]); }
        else if k < |pre| + |name| { assert s[k] == name[k - |pre|]; }
        else { assert IsSpace(post[k - |pre| - |name|]); }
      }
    }
    assert BeforeFirst(s, '|') == s;
    TrimPadded(pre, name, post);
    PlainNameRaw(name);
  }
}

=== FILE: notefacts.dfy ===
/** Facts about single notes and small vaults, stated once so that each
    example vault only has to supply the character-level facts of its own
    texts. */
module NoteFacts {
  import opened Wrappers
  import opened Strings
  import opened Fences
  import opened CodeSpans
  import opened Tokenizer
  import opened LinkRefs
  import opened FrontMatter
  import opened Identity
  import opened Backlinks

  /** Every opening bracket of `text` sits at `i` or `i + 1`. */
  predicate BracketsOnlyAt(text: string, i: int) {
    forall k :: 0 <= k < |text| && text[k] == '[' ==> k == i || k == i + 1
  }

  /** The wiki link `[[t]]` as written. */
  function Link(t: string): (w: string)
    ensures |w| == |t| + 4 && w[0] == '[' && w[1] == '['
    ensures w[|t| + 2] == ']' && w[|t| + 3] == ']'
    ensures forall k :: 0 <= k < |t| ==> w[k + 2] == t[k]
  {
    "[[" + t + "]]"
  }

  /** A text made of `pre`, the link `[[t]]` and `post`, character by
      character. */
  lemma LinkText(pre: string, t: string, post: string)
    ensures var text := pre + Link(t) + post;
            |text| == |pre| + |t| + 4 + |post|
            && (forall k :: 0 <= k < |pre| ==> text[k] == pre[k])
            && (forall k :: 0 <= k < |t| + 4 ==> text[|pre| + k] == Link(t)[k])
            && (forall k :: 0 <= k < |post| ==> text[|pre| + |t| + 4 + k] == post[k])
  {
  }

  /** Where `[[t]]` sits in `pre + [[t]] + post`: its brackets and its
      inner text. */
  lemma LinkShape(pre: string, t: string, post: string)
    ensures var text := pre + Link(t) + post;
            var i := |pre|;
            i + |t| + 4 <= |text| && text[i] == '[' && text[i + 1] == '['
            && text[i + 2..i + 2 + |t|] == t
            && text[i + 2 + |t|] == ']' && text[i + 3 + |t|] == ']'
  {
    var text := pre + Link(t) + post;
    var i := |pre|;
    var w := Link(t);
    assert text[i..i + |t| + 4] == w;
    assert text[i + 2..i + 2 + |t|] == w[2..|t| + 2];
    assert w[2..|t| + 2] == t;
    assert text[i] == w[0] && text[i + 1] == w[1];
    assert text[i + 2 + |t|] == w[|t| + 2] && text[i + 3 + |t|] == w[|t| + 3];
  }

  /** `[[t]]` written in text without code is a link, unless the text
      before it ends in a backslash. */
  lemma LinkBetween(pre: string, t: string, post: string)
    requires t != [] && forall k :: 0 <= k < |t| ==> IsLinkChar(t[k])
    requires pre == [] || pre[|pre| - 1] != '\\'
    ensures IsLinkAt(pre + Link(t) + post, Fill(false, |pre + Link(t) + post|), |pre|, t)
  {
    var text := pre + Link(t) + post;
    LinkShape(pre, t, post);
    if pre != [] {
      assert text[|pre| - 1] == pre[|pre| - 1];
    }
  }

  /** A character absent from `pre`, `t` and `post` and not a bracket is
      absent from `pre + [[t]] + post`. */
  lemma LinkTextFree(pre: string, t: string, post: string, c: char)
    requires c != '[' && c != ']'
    requires c !in pre && c !in t && c !in post
    ensures c !in pre + Link(t) + post
  {
    var text := pre + Link(t) + post;
    var i := |pre|;
    LinkText(pre, t, post);
    forall k | i <= k < i + |t| + 4 ensures text[k] != c {
      assert text[i + (k - i)] == Link(t)[k - i];
      if 2 <= k - i < |t| + 2 { assert Link(t)[(k - i - 2) + 2] == t[k - i - 2]; }
    }
    forall k | i + |t| + 4 <= k < |text| ensures text[k] != c {
      assert text[i + |t| + 4 + (k - i - |t| - 4)] == post[k - i - |t| - 4];
    }
  }

  /** Text without code around `[[t]]` stays without code. */
  lemma LinkPlain(pre: string, t: string, post: string)
    requires Plain(pre) && Plain(t) && Plain(post)
    ensures Plain(pre + Link(t) + post)
  {
    LinkTextFree(pre, t, post, '`');
    LinkTextFree(pre, t, post, '~');
  }

  /** The brackets of `pre + [[t]] + post` are those of the link when
      `pre` and `post` have none. */
  lemma OnlyLinkBrackets(pre: string, t: string, post: string)
    requires forall k :: 0 <= k < |t| ==> IsLinkChar(t[k])
    requires '[' !in pre && '[' !in post
    ensures BracketsOnlyAt(pre + Link(t) + post, |pre|)
  {
    var text := pre + Link(t) + post;
    var i := |pre|;
    LinkText(pre, t, post);
    forall k | 0 <= k < |text| && text[k] == '[' ensures k == i || k == i + 1 {
    }
  }

  /** A text without code whose one link is `[[t]]` links to a note
      exactly when the reference `t` carries is one of the note's names. */
  lemma SingleLinkText(ids: set<string>, pre: string, t: string, post: string, n: string)
    requires t != [] && forall k :: 0 <= k < |t| ==> IsLinkChar(t[k])
    requires Plain(pre) && Plain(t) && Plain(post) && '[' !in pre && '[' !in post
    requires pre == [] || pre[|pre| - 1] != '\\'
    requires Reference(t) == Some(n)
    ensures LinksTo(ids, pre + Link(t) + post) <==> n in ids
  {
    LinkBetween(pre, t, post);
    LinkPlain(pre, t, post);
    OnlyLinkBrackets(pre, t, post);
    SingleLink(ids, pre + Link(t) + post, |pre|, t, n);
  }

  /** A text without code that contains a link referring to the note links
      to it, whatever else it contains. */
  lemma SomeLinkText(ids: set<string>, pre: string, t: string, post: string, n: string)
    requires t != [] && forall k :: 0 <= k < |t| ==> IsLinkChar(t[k])
    requires Plain(pre) && Plain(t) && Plain(post)
    requires pre == [] || pre[|pre| - 1] != '\\'
    requires Reference(t) == Some(n) && n in ids
    ensures LinksTo(ids, pre + Link(t) + post)
  {
    LinkBetween(pre, t, post);
    LinkPlain(pre, t, post);
    ReferenceRefers(ids, t, n);
    PlainLinkLinks(ids, pre + Link(t) + post, |pre|, t);
  }

  /** `[[t]]` right after a backslash, in text without code and without
      other brackets, links to nothing. */
  lemma EscapedLink(ids: set<string>, pre: string, t: string, post: string)
    requires pre != [] && pre[|pre| - 1] == '\\'
    requires forall k :: 0 <= k < |t| ==> IsLinkChar(t[k])
    requires Plain(pre) && Plain(t) && Plain(post) && '[' !in pre && '[' !in post
    ensures !LinksTo(ids, pre + Link(t) + post)
  {
    var text := pre + Link(t) + post;
    LinkText(pre, t, post);
    LinkPlain(pre, t, post);
    OnlyLinkBrackets(pre, t, post);
    assert text[|pre| - 1] == '\\';
    EscapedOnly(ids, text, |pre|);
  }

  /** The pieces of `pre`, then `[[t]]` between backticks, then `post`. */
  lemma InlinePiecesAt(pre: string, t: string, post: string)
    ensures var text := pre + "`" + Link(t) + "`" + post;
            var e := |pre| + |t| + 5;
            |text| == e + 1 + |post| && text[..|pre|] == pre && text[|pre|] == '`'
            && text[|pre| + 1..e] == Link(t) && text[e] == '`' && text[e + 1..] == post
  {
  }

  /** Inside the backticks of `pre`, then `[[t]]` between backticks, then
      `post`: the link's characters, none a backtick or a newline. */
  lemma InlineInside(pre: string, t: string, post: string)
    requires forall k :: 0 <= k < |t| ==> IsLinkChar(t[k])
    requires Plain(t) && '\n' !in t
    ensures var text := pre + "`" + Link(t) + "`" + post;
            forall k :: |pre| < k < |pre| + |t| + 5 ==> text[k] != '`' && text[k] != '\n'
  {
    var text := pre + "`" + Link(t) + "`" + post;
    var a := |pre|;
    var e := |pre| + |t| + 5;
    InlinePiecesAt(pre, t, post);
    var w := Link(t);
    forall k | a < k < e ensures text[k] != '`' && text[k] != '\n' {
      assert text[a + 1..e][k - a - 1] == text[k];
      if 2 <= k - a - 1 < |t| + 2 { assert w[(k - a - 3) + 2] == t[k - a - 3]; }
    }
  }

  /** Outside the backticks of `pre`, then `[[t]]` between backticks, then
      `post`: the characters of `pre` and of `post`. */
  lemma InlineOutside(pre: string, t: string, post: string)
    ensures var text := pre + "`" + Link(t) + "`" + post;
            var e := |pre| + |t| + 5;
            (forall k :: 0 <= k < |pre| ==> text[k] == pre[k])
            && (forall k :: e < k < |text| ==> text[k] == post[k - e - 1])
  {
    var text := pre + "`" + Link(t) + "`" + post;
    var e := |pre| + |t| + 5;
    InlinePiecesAt(pre, t, post);
    forall k | 0 <= k < |pre| ensures text[k] == pre[k] {
      assert text[..|pre|][k] == text[k];
    }
    forall k | e < k < |text| ensures text[k] == post[k - e - 1] {
      assert text[e + 1..][k - e - 1] == text[k];
    }
  }

  /** The shape of `pre`, then `[[t]]` between backticks, then `post`:
      the backticks sit at `a` and `e`, nothing between them is a backtick,
      and no bracket lies outside them. */
  lemma InlineShape(pre: string, t: string, post: string) returns (a: nat, e: nat)
    requires forall k :: 0 <= k < |t| ==> IsLinkChar(t[k])
    requires Plain(t) && '[' !in pre && '[' !in post
    requires '\n' !in pre && '\n' !in t && '\n' !in post
    ensures var text := pre + "`" + Link(t) + "`" + post;
            a == |pre| && a < e < |text| && text[a] == '`' && text[e] == '`'
            && '\n' !in text
            && (forall k :: a < k < e ==> text[k] != '`')
            && (forall k :: 0 <= k < a ==> text[k] == pre[k])
            && (forall k :: 0 <= k < |text| && text[k] == '[' ==> a < k < e)
  {
    var text := pre + "`" + Link(t) + "`" + post;
    a := |pre|;
    e := |pre| + |t| + 5;
    InlinePiecesAt(pre, t, post);
    InlineInside(pre, t, post);
    InlineOutside(pre, t, post);
    forall k | 0 <= k < |text|
      ensures text[k] != '\n'
      ensures text[k] == '[' ==> a < k < e
    {
      if k < a {
        assert text[k] in pre;
      } else if e < k {
        assert text[k] in post;
      }
    }
  }

  /** `[[t]]` inside an inline code span, in a one-line text without other
      brackets, links to nothing, provided the backticks before the span
      pair up among themselves. */
  lemma InlineCodeLink(ids: set<string>, pre: string, t: string, post: string)
    requires pre != [] && !IsFenceChar(pre[0])
    requires forall k :: 0 <= k < |t| ==> IsLinkChar(t[k])
    requires Plain(t) && '[' !in pre && '[' !in post
    requires '\n' !in pre && '\n' !in t && '\n' !in post
    requires BacktickCount(pre, 0, |pre|) % 2 == 0
    ensures !LinksTo(ids, pre + "`" + Link(t) + "`" + post)
  {
    var text := pre + "`" + Link(t) + "`" + post;
    InlineBracketsMasked(pre, t, post);
    MaskedBracketsNoLinks(ids, text);
  }

  /** Under the same conditions every bracket of the text lies in code. */
  lemma InlineBracketsMasked(pre: string, t: string, post: string)
    requires pre != [] && !IsFenceChar(pre[0])
    requires forall k :: 0 <= k < |t| ==> IsLinkChar(t[k])
    requires Plain(t) && '[' !in pre && '[' !in post
    requires '\n' !in pre && '\n' !in t && '\n' !in post
    requires BacktickCount(pre, 0, |pre|) % 2 == 0
    ensures var text := pre + "`" + Link(t) + "`" + post;
            forall k :: 0 <= k < |text| && text[k] == '[' ==> CodeMask(text)[k]
  {
    var text := pre + "`" + Link(t) + "`" + post;
    var a, e := InlineShape(pre, t, post);
    assert text[0] == pre[0];
    OneLineUnfenced(text);
    assert IsSpan(text, FenceMask(text), a, e);
    BacktickCountSame(text, pre, 0, a);
    InlineSpanMasked(text, 0, a, e);
  }

  /** A single line that does not start with a fence character holds no
      fenced block. */
  lemma OneLineUnfenced(text: string)
    requires text != [] && !IsFenceChar(text[0]) && '\n' !in text
    ensures FenceMask(text) == Fill(false, |text|)
  {
    assert NoFenceLineFrom(text, 0);
    NoFenceNoMask(text, 0);
  }

  /** Backtick runs are not matched by length: in ``c ``[[x]]`` `` the
      doubled backticks make two empty spans, and the brackets between them
      stay outside code. */
  lemma DoubledBackticksUnmasked()
    ensures !CodeMask("c ``[[x]]``")[4] && !CodeMask("c ``[[x]]``")[5]
  {
    var text := "c ``[[x]]``";
    OneLineUnfenced(text);
    forall k | k == 4 || k == 5
      ensures !CodeMask(text)[k]
    {
      CodeMaskExact(text, k);
      forall p, a, e | a <= k <= e
        ensures !PairedSpan(text, FenceMask(text), p, a, e)
      {
        DoubledNotPaired(text, p, a, e, k);
      }
    }
  }

  /** No span around the brackets of ``c ``[[x]]`` `` is paired: the one
      from the second backtick to the third has an odd count before it. */
  lemma DoubledNotPaired(text: string, p: int, a: int, e: int, k: int)
    requires text == "c ``[[x]]``" && FenceMask(text) == Fill(false, |text|)
    requires (k == 4 || k == 5) && a <= k <= e
    ensures !PairedSpan(text, FenceMask(text), p, a, e)
  {
    if 0 <= p <= a && e < |text| {
      if a == 3 {
        if p == 0 {
          assert BacktickCount(text, 0, 3) == 1;
        } else {
          assert !FenceMask(text)[p - 1];
        }
      } else if a == 2 {
        assert text[3] == '`';
      } else if 0 <= a {
        assert text[a] != '`';
      }
    }
  }

  /** Every position of a text whose first and last lines are backtick
      fences and whose middle line is `body` lies in the fenced block. */
  lemma FencedTextMasked(body: string)
    requires body != [] && body[0] != '`' && '\n' !in body
    ensures var text := "```" + "\n" + body + "\n" + "```";
            forall k :: 0 <= k < |text| ==> FenceMask(text)[k]
  {
    var text := "```" + "\n" + body + "\n" + "```";
    var c := |body| + 5;
    assert |text| == c + 3;
    assert forall k :: 0 <= k < 3 ==> text[k] == '`';
    assert forall k :: c <= k < c + 3 ==> text[k] == '`';
    assert text[3] == '\n' && text[c - 1] == '\n';
    assert forall j :: 0 <= j < |body| ==> text[4 + j] == body[j];
    assert LineEnd(text, 0) == 3;
    assert LineEnd(text, 4) == c - 1;
    assert LineEnd(text, c) == |text|;
    var f := Fence('`', 3);
    assert OpeningFence(Line(text, 0)) == Some(f);
    assert NoCloserBetween(text, 0, c, f) by {
      forall l | 0 < l < c && IsLineStart(text, l) ensures !ClosesFence(Line(text, l), f) {
        assert l == 4;
        assert Line(text, 4)[0] == body[0];
      }
    }
    assert ClosesFence(Line(text, c), f);
    FencedBlockMasked(text, 0, c, f);
    assert NextLine(text, c) == |text|;
  }

  /** A link on the only line inside a fenced code block links to nothing. */
  lemma FencedLink(ids: set<string>, body: string)
    requires body != [] && body[0] != '`' && '\n' !in body
    ensures !LinksTo(ids, "```" + "\n" + body + "\n" + "```")
  {
    var text := "```" + "\n" + body + "\n" + "```";
    FencedTextMasked(body);
    forall k | 0 <= k < |text| ensures CodeMask(text)[k] {
      CodeMaskSound(text, k);
    }
    MaskedBracketsNoLinks(ids, text);
  }

  /** A top-level note without front matter answers to its file name
      without `.md` alone. */
  lemma PlainIdentity(doc: Doc, name: string)
    requires doc.path == name + Extension && PathSeparator !in name
    requires |doc.content| > 0 && doc.content[0] != '-'
    ensures NoteIdentity(doc) == {name}
  {
    NamesOfNote([], name);
    assert !StartsWith(doc.content, Delimiter + "\n") by {
      if |doc.content| >= 4 { assert doc.content[..4][0] == doc.content[0]; }
    }
    NoFrontMatter(doc.content);
  }

  /** A note's names, given its base name and its aliases. */
  lemma IdentityOf(doc: Doc, name: string, aliases: seq<string>)
    requires BaseName(doc.path) == name && Aliases(doc.content) == aliases
    ensures forall n :: n in NoteIdentity(doc) <==> n == name || n in aliases
  {
  }

  /** The file name of a top-level note is its path. */
  lemma TopLevelFileName(path: string)
    requires PathSeparator !in path
    ensures FileName(path) == path
  {
    LastSegmentWhole(path, PathSeparator);
  }

  /** A top-level note is listed under its path, which is its file name. */
  lemma TopLevelRecord(d: Doc)
    requires PathSeparator !in d.path
    ensures Record(d) == Backlink(d.path, d.path)
  {
    TopLevelFileName(d.path);
  }

  /** A note `name.md` inside folder `dir` is listed under its full path
      and the file name `name.md`. */
  lemma NestedRecord(dir: string, name: string, content: string)
    requires PathSeparator !in name
    ensures Record(Doc(dir + [PathSeparator] + name + Extension, content))
            == Backlink(dir + [PathSeparator] + name + Extension, name + Extension)
  {
    NamesOfNote(dir, name);
  }

  /** A token whose reference is `n` refers to the note exactly when `n` is
      one of its names. */
  lemma ReferenceRefers(ids: set<string>, t: string, n: string)
    requires Reference(t) == Some(n)
    ensures RefersTo(ids, t) <==> n in ids
  {
  }

  /** A plain text with a single link links to the note exactly when the
      link's reference is one of the note's names. */
  lemma SingleLink(ids: set<string>, text: string, i: nat, t: string, n: string)
    requires Plain(text) && IsLinkAt(text, Fill(false, |text|), i, t)
    requires BracketsOnlyAt(text, i) && Reference(t) == Some(n)
    ensures LinksTo(ids, text) <==> n in ids
  {
    ReferenceRefers(ids, t, n);
    if n in ids {
      PlainLinkLinks(ids, text, i, t);
    } else {
      PlainTextUnmasked(text);
      OnlyLinkNoLinks(ids, text, i, t);
    }
  }

  /** A plain text whose only bracket pair is escaped links to nothing. */
  lemma EscapedOnly(ids: set<string>, text: string, i: nat)
    requires Plain(text) && 0 < i < |text| && text[i - 1] == '\\' && BracketsOnlyAt(text, i)
    ensures !LinksTo(ids, text)
  {
    PlainTextUnmasked(text);
    var mask := CodeMask(text);
    forall j: nat, u | IsLinkAt(text, mask, j, u) ensures false {
    }
    LinksToExact(ids, text);
  }
}

=== FILE: strings.dfy ===
/** Character-level helpers shared by the link parser, the front-matter
    reader and the path handling: whitespace trimming, prefix/suffix tests,
    splitting at a separator and taking the last path segment. */
module Strings {

  /** The whitespace characters that trimming removes: the characters
      Python's `str.isspace` accepts (tab through carriage return, the
      information separators, space, next-line, no-break space and the
      Unicode space separators). */
  predicate IsSpace(c: char) {
    c == ' ' || ('\t' <= c <= '\r') || ('\U{1C}' <= c <= '\U{1F}')
    || c == '\U{85}' || c == '\U{A0}' || c == '\U{1680}'
    || ('\U{2000}' <= c <= '\U{200A}') || c == '\U{2028}' || c == '\U{2029}'
    || c == '\U{202F}' || c == '\U{205F}' || c == '\U{3000}'
  }

  predicate StartsWith(s: string, prefix: string) {
    |prefix| <= |s| && s[..|prefix|] == prefix
  }

  predicate EndsWith(s: string, suffix: string) {
    |suffix| <= |s| && s[|s| - |suffix|..] == suffix
  }

  /** Neither end of `s` is whitespace. */
  predicate IsTrimmed(s: string) {
    s == [] || (!IsSpace(s[0]) && !IsSpace(s[|s| - 1]))
  }

  /** `s` without its leading whitespace. */
  function TrimStart(s: string): (r: string)
    ensures |r| <= |s| && r == s[|s| - |r|..]
    ensures r == [] || !IsSpace(r[0])
  {
    if s != [] && IsSpace(s[0]) then TrimStart(s[1..]) else s
  }

  /** What `TrimStart` removes is whitespace. */
  lemma {:induction false} TrimStartSpaces(s: string)
    ensures forall k :: 0 <= k < |s| - |TrimStart(s)| ==> IsSpace(s[k])
    decreases |s|
  {
    if s != [] && IsSpace(s[0]) {
      TrimStartSpaces(s[1..]);
      assert forall k :: 1 <= k < |s| ==> s[k] == s[1..][k - 1];
    }
  }

  /** `s` without its trailing whitespace. */
  function TrimEnd(s: string): (r: string)
    ensures |r| <= |s| && r == s[..|r|]
    ensures r == [] || !IsSpace(r[|r| - 1])
  {
    if s != [] && IsSpace(s[|s| - 1]) then TrimEnd(s[..|s| - 1]) else s
  }

  /** What `TrimEnd` removes is whitespace. */
  lemma {:induction false} TrimEndSpaces(s: string)
    ensures forall k :: |TrimEnd(s)| <= k < |s| ==> IsSpace(s[k])
    decreases |s|
  {
    if s != [] && IsSpace(s[|s| - 1]) {
      TrimEndSpaces(s[..|s| - 1]);
    }
  }

  /** `r` sits at offset `i` of `s` and everything around it is whitespace. */
  predicate PaddedAt(s: string, i: int, r: string) {
    0 <= i <= |s| - |r| && r == s[i..i + |r|]
    && (forall k :: 0 <= k < i ==> IsSpace(s[k]))
    && (forall k :: i + |r| <= k < |s| ==> IsSpace(s[k]))
  }

  /** `s` without leading and trailing whitespace. */
  function Trim(s: string): (r: string)
    ensures IsTrimmed(r)
  {
    TrimEnd(TrimStart(s))
  }

  /** The trimmed string is a contiguous piece of `s` whose surroundings are
      all whitespace. */
  lemma TrimPadding(s: string) returns (i: nat)
    ensures PaddedAt(s, i, Trim(s))
  {
    var t := TrimStart(s);
    i := |s| - |t|;
    TrimStartSpaces(s);
    TrimEndSpaces(t);
    var r := TrimEnd(t);
    assert forall k :: i + |r| <= k < |s| ==> s[k] == t[k - i];
  }

  /** Trimming introduces no characters. */
  lemma TrimContained(s: string, c: char)
    requires c in Trim(s)
    ensures c in s
  {
    var r := Trim(s);
    var i := TrimPadding(s);
    var k :| 0 <= k < |r| && r[k] == c;
    assert s[i + k] == c;
  }

  /** A character absent from `s` is absent from its trimmed form. */
  lemma TrimKeepsOut(s: string, c: char)
    requires c !in s
    ensures c !in Trim(s)
  {
    if c in Trim(s) { TrimContained(s, c); }
  }

  /** Trimming leaves an already trimmed string alone. */
  lemma TrimOfTrimmed(s: string)
    requires IsTrimmed(s)
    ensures Trim(s) == s
  {
    assert TrimStart(s) == s;
  }

  /** Trimming is idempotent. */
  lemma TrimIdempotent(s: string)
    ensures Trim(Trim(s)) == Trim(s)
  {
    TrimOfTrimmed(Trim(s));
  }

  /** Whitespace added around a trimmed string is removed again. */
  lemma {:induction false} TrimPadded(pre: string, s: string, post: string)
    requires IsTrimmed(s) && s != []
    requires forall k :: 0 <= k < |pre| ==> IsSpace(pre[k])
    requires forall k :: 0 <= k < |post| ==> IsSpace(post[k])
    ensures Trim(pre + s + post) == s
  {
    var x := pre + s + post;
    TrimStartPadded(pre, s + post);
    assert pre + (s + post) == x;
    TrimEndPadded(s, post);
  }

  lemma {:induction false} TrimStartPadded(pre: string, s: string)
    requires s != [] && !IsSpace(s[0])
    requires forall k :: 0 <= k < |pre| ==> IsSpace(pre[k])
    ensures TrimStart(pre + s) == s
    decreases |pre|
  {
    if pre != [] {
      assert (pre + s)[1..] == pre[1..] + s;
      TrimStartPadded(pre[1..], s);
    }
  }

  lemma {:induction false} TrimEndPadded(s: string, post: string)
    requires s != [] && !IsSpace(s[|s| - 1])
    requires forall k :: 0 <= k < |post| ==> IsSpace(post[k])
    ensures TrimEnd(s + post) == s
    decreases |post|
  {
    if post != [] {
      assert (s + post)[..|s + post| - 1] == s + post[..|post| - 1];
      TrimEndPadded(s, post[..|post| - 1]);
    }
  }

  /** The part of `s` before the first `sep`, or all of `s` when there is none. */
  function BeforeFirst(s: string, sep: char): (r: string)
    ensures StartsWith(s, r)
    ensures sep !in r
    ensures |r| < |s| ==> s[|r|] == sep
  {
    if s == [] || s[0] == sep then [] else [s[0]] + BeforeFirst(s[1..], sep)
  }

  /** Whatever follows a separator does not change the piece before it. */
  lemma {:induction false} BeforeFirstSeparated(a: string, sep: char, rest: string)
    requires sep !in a
    ensures BeforeFirst(a + [sep] + rest, sep) == a
    decreases |a|
  {
    if a != [] {
      assert (a + [sep] + rest)[1..] == a[1..] + [sep] + rest;
      BeforeFirstSeparated(a[1..], sep, rest);
    }
  }

  /** Splitting at every `sep`, as Python's `str.split(sep)` does: there is
      always at least one piece. */
  function Split(s: string, sep: char): (pieces: seq<string>)
    ensures |pieces| >= 1
    ensures forall i :: 0 <= i < |pieces| ==> sep !in pieces[i]
    ensures Join(pieces, sep) == s
    decreases |s|
  {
    var head := BeforeFirst(s, sep);
    if |head| == |s| then [s]
    else
      var tail := Split(s[|head| + 1..], sep);
      assert s == head + [sep] + s[|head| + 1..];
      [head] + tail
  }

  /** The inverse of `Split`: the pieces glued together with `sep`. */
  function Join(pieces: seq<string>, sep: char): string
  {
    if pieces == [] then []
    else if |pieces| == 1 then pieces[0]
    else pieces[0] + [sep] + Join(pieces[1..], sep)
  }

  /** Splitting a piece-wise separator-free join recovers the pieces. */
  lemma {:induction false} SplitJoin(pieces: seq<string>, sep: char)
    requires |pieces| >= 1
    requires forall i :: 0 <= i < |pieces| ==> sep !in pieces[i]
    ensures Split(Join(pieces, sep), sep) == pieces
    decreases |pieces|
  {
    if |pieces| > 1 {
      var s := Join(pieces, sep);
      BeforeFirstSeparated(pieces[0], sep, Join(pieces[1..], sep));
      assert s[|pieces[0]| + 1..] == Join(pieces[1..], sep);
      SplitJoin(pieces[1..], sep);
    } else {
      assert BeforeFirst(pieces[0], sep) == pieces[0];
    }
  }

  /** Every character of a piece occurs in the joined string. */
  lemma {:induction false} JoinContains(pieces: seq<string>, sep: char, i: nat, c: char)
    requires i < |pieces| && c in pieces[i]
    ensures c in Join(pieces, sep)
    decreases |pieces|
  {
    if |pieces| > 1 {
      var rest := Join(pieces[1..], sep);
      if i > 0 {
        JoinContains(pieces[1..], sep, i - 1, c);
      }
      assert Join(pieces, sep) == pieces[0] + [sep] + rest;
    }
  }

  /** A join of pieces free of `c` is free of `c`, when `c` is not the
      separator. */
  lemma {:induction false} JoinFree(pieces: seq<string>, sep: char, c: char)
    requires c != sep
    requires forall i :: 0 <= i < |pieces| ==> c !in pieces[i]
    ensures c !in Join(pieces, sep)
    decreases |pieces|
  {
    if |pieces| > 1 {
      JoinFree(pieces[1..], sep, c);
    }
  }

  /** Splitting past one separator-free piece and its separator. */
  lemma SplitCons(a: string, sep: char, rest: string)
    requires sep !in a
    ensures Split(a + [sep] + rest, sep) == [a] + Split(rest, sep)
  {
    BeforeFirstSeparated(a, sep, rest);
    assert (a + [sep] + rest)[|a| + 1..] == rest;
  }

  /** The last `sep`-separated segment of `s`. */
  function LastSegment(s: string, sep: char): (r: string)
    ensures EndsWith(s, r)
    ensures sep !in r
    ensures |r| < |s| ==> s[|s| - |r| - 1] == sep
  {
    if s == [] || s[|s| - 1] == sep then []
    else LastSegment(s[..|s| - 1], sep) + [s[|s| - 1]]
  }

  /** A segment free of separators is the last segment of itself. */
  lemma {:induction false} LastSegmentWhole(s: string, sep: char)
    requires sep !in s
    ensures LastSegment(s, sep) == s
    decreases |s|
  {
    if s != [] {
      var init := s[..|s| - 1];
      assert s[|s| - 1] != sep;
      assert sep !in init by {
        forall k | 0 <= k < |init| ensures init[k] != sep {
          assert init[k] == s[k];
        }
      }
      LastSegmentWhole(init, sep);
      assert LastSegment(s, sep) == LastSegment(init, sep) + [s[|s| - 1]];
      assert s == init + [s[|s| - 1]];
    }
  }

  /** The last segment is whatever follows the last separator. */
  lemma {:induction false} LastSegmentAfter(dir: string, sep: char, s: string)
    requires sep !in s
    ensures LastSegment(dir + [sep] + s, sep) == s
    decreases |s|
  {
    var p := dir + [sep] + s;
    if s == [] {
      assert p[|p| - 1] == sep;
    } else {
      assert p[..|p| - 1] == dir + [sep] + s[..|s| - 1];
      LastSegmentAfter(dir, sep, s[..|s| - 1]);
      assert s == s[..|s| - 1] + [s[|s| - 1]];
    }
  }

  /** `s` with one trailing `suffix` removed, when it has one. */
  function StripSuffix(s: string, suffix: string): (r: string)
    ensures EndsWith(s, suffix) ==> r + suffix == s
    ensures !EndsWith(s, suffix) ==> r == s
  {
    if EndsWith(s, suffix) then s[..|s| - |suffix|] else s
  }

  /** Stripping a suffix just appended gives back the original string. */
  lemma StripSuffixAppended(s: string, suffix: string)
    ensures StripSuffix(s + suffix, suffix) == s
  {
    assert (s + suffix)[|s + suffix| - |suffix|..] == suffix;
  }
}

=== FILE: tokenizer.dfy ===
/** The link tokenizer. Under the code mask it finds every wiki link
    `[[inner]]`: two opening brackets not preceded by an (unmasked)
    backslash, a non-empty run of characters that are neither brackets nor
    newlines, and two closing brackets, every character of it unmasked. The
    scan goes left to right and resumes after each link, so the first
    closing pair wins and nested brackets never form a link. */
module Tokenizer {
  import opened Wrappers
  import opened CodeSpans

  /** A character allowed between the brackets of a link. */
  predicate IsLinkChar(c: char) {
    c != '[' && c != ']' && c != '\n'
  }

  /** The character just before `i` is an unmasked backslash. */
  predicate Escaped(text: string, mask: seq<bool>, i: int)
    requires |mask| == |text| && 0 <= i <= |text|
  {
    i > 0 && text[i - 1] == '\\' && !mask[i - 1]
  }

  /** The link `[[t]]` occurs at offset `i`: unmasked, not escaped, with
      non-empty inner text `t` of link characters. */
  predicate IsLinkAt(text: string, mask: seq<bool>, i: int, t: string) {
    |mask| == |text| && 0 <= i && i + |t| + 4 <= |text|
    && text[i] == '[' && text[i + 1] == '['
    && text[i + 2..i + 2 + |t|] == t
    && text[i + 2 + |t|] == ']' && text[i + 3 + |t|] == ']'
    && t != [] && (forall k :: 0 <= k < |t| ==> IsLinkChar(t[k]))
    && (forall k :: i <= k < i + |t| + 4 ==> !mask[k])
    && !Escaped(text, mask, i)
  }

  /** The number of consecutive unmasked link characters from `j`. */
  function LinkRun(text: string, mask: seq<bool>, j: nat): (n: nat)
    requires |mask| == |text| && j <= |text|
    ensures j + n <= |text|
    ensures forall k :: j <= k < j + n ==> IsLinkChar(text[k]) && !mask[k]
    ensures j + n < |text| ==> !IsLinkChar(text[j + n]) || mask[j + n]
    decreases |text| - j
  {
    if j < |text| && IsLinkChar(text[j]) && !mask[j] then 1 + LinkRun(text, mask, j + 1) else 0
  }

  /** The inner text of the link at offset `i`, if one is there: exactly
      the `t` with `IsLinkAt(text, mask, i, t)`. */
  function LinkAt(text: string, mask: seq<bool>, i: nat): (r: Option<string>)
    requires |mask| == |text| && i <= |text|
    ensures forall t :: r == Some(t) <==> IsLinkAt(text, mask, i, t)
  {
    if i + 1 < |text| && text[i] == '[' && text[i + 1] == '[' && !mask[i] && !mask[i + 1]
       && !Escaped(text, mask, i)
    then
      var n := LinkRun(text, mask, i + 2);
      var e := i + 2 + n;
      if n > 0 && e + 1 < |text| && text[e] == ']' && text[e + 1] == ']' && !mask[e] && !mask[e + 1]
      then
        assert IsLinkAt(text, mask, i, text[i + 2..e]);
        assert forall t :: IsLinkAt(text, mask, i, t) ==> t == text[i + 2..e] by {
          forall t | IsLinkAt(text, mask, i, t) ensures t == text[i + 2..e] {
            LinkRunOfLink(text, mask, i, t);
          }
        }
        Some(text[i + 2..e])
      else
        assert forall t :: !IsLinkAt(text, mask, i, t) by {
          forall t | IsLinkAt(text, mask, i, t) ensures false {
            LinkRunOfLink(text, mask, i, t);
          }
        }
        None
    else None
  }

  /** The run of link characters after the opening brackets of a link is
      exactly its inner text. */
  lemma LinkRunOfLink(text: string, mask: seq<bool>, i: nat, t: string)
    requires IsLinkAt(text, mask, i, t)
    ensures LinkRun(text, mask, i + 2) == |t|
  {
  }

  /** Two links never overlap: a later one starts after an earlier one ends. */
  lemma LinksDisjoint(text: string, mask: seq<bool>, i: nat, t: string, j: nat, u: string)
    requires IsLinkAt(text, mask, i, t) && IsLinkAt(text, mask, j, u) && i < j
    ensures i + |t| + 4 <= j
  {
  }

  /** The inner texts of the links found scanning from `i`, in order. */
  function Scan(text: string, mask: seq<bool>, i: nat): (tokens: seq<string>)
    requires |mask| == |text| && i <= |text|
    decreases |text| - i
  {
    if i == |text| then []
    else match LinkAt(text, mask, i)
      case Some(t) =>
        assert i + |t| + 4 <= |text| by { assert IsLinkAt(text, mask, i, t); }
        [t] + Scan(text, mask, i + |t| + 4)
      case None => Scan(text, mask, i + 1)
  }

  /** Every token the scan finds is a link at or after its starting point. */
  lemma {:induction false} ScanSound(text: string, mask: seq<bool>, i: nat, t: string)
    requires |mask| == |text| && i <= |text| && t in Scan(text, mask, i)
    ensures exists j :: i <= j && IsLinkAt(text, mask, j, t)
    decreases |text| - i
  {
    var r := LinkAt(text, mask, i);
    if r.Some? {
      var u := r.value;
      ScanMatch(text, mask, i, u);
      if t != u {
        ScanSound(text, mask, i + |u| + 4, t);
      }
    } else {
      ScanNoMatch(text, mask, i);
      ScanSound(text, mask, i + 1, t);
    }
  }

  /** The scan finds every link at or after its starting point. */
  lemma {:induction false} ScanComplete(text: string, mask: seq<bool>, p: nat, i: nat, t: string)
    requires p <= i && IsLinkAt(text, mask, i, t)
    ensures t in Scan(text, mask, p)
    decreases |text| - p
  {
    var r := LinkAt(text, mask, p);
    if r.Some? {
      var u := r.value;
      ScanMatch(text, mask, p, u);
      if p < i {
        LinksDisjoint(text, mask, p, u, i, t);
        ScanComplete(text, mask, p + |u| + 4, i, t);
      } else {
        LinkDetermined(text, mask, p, t, u);
      }
    } else {
      ScanNoMatch(text, mask, p);
      ScanComplete(text, mask, p + 1, i, t);
    }
  }

  /** A link at the scan position is emitted and the scan resumes after it. */
  lemma ScanMatch(text: string, mask: seq<bool>, i: nat, t: string)
    requires |mask| == |text| && i <= |text| && LinkAt(text, mask, i) == Some(t)
    ensures IsLinkAt(text, mask, i, t)
    ensures Scan(text, mask, i) == [t] + Scan(text, mask, i + |t| + 4)
  {
  }

  /** Where no link starts the scan moves on by one position. */
  lemma ScanNoMatch(text: string, mask: seq<bool>, i: nat)
    requires |mask| == |text| && i < |text| && LinkAt(text, mask, i).None?
    ensures Scan(text, mask, i) == Scan(text, mask, i + 1)
  {
  }

  /** The link tokens of a text under its code mask. */
  function Tokens(text: string): seq<string>
  {
    Scan(text, CodeMask(text), 0)
  }

  /** A token is found exactly when its link occurs somewhere unmasked and
      unescaped. */
  lemma TokensExact(text: string, t: string)
    ensures t in Tokens(text) <==> exists i :: IsLinkAt(text, CodeMask(text), i, t)
  {
    if i :| IsLinkAt(text, CodeMask(text), i, t) {
      ScanComplete(text, CodeMask(text), 0, i, t);
    }
    if t in Tokens(text) {
      ScanSound(text, CodeMask(text), 0, t);
    }
  }

  /** Positions where no link starts are passed over. */
  lemma {:induction false} ScanSkip(text: string, mask: seq<bool>, i: nat, j: nat)
    requires |mask| == |text| && i <= j <= |text|
    requires forall k :: i <= k < j ==> LinkAt(text, mask, k).None?
    ensures Scan(text, mask, i) == Scan(text, mask, j)
    decreases j - i
  {
    if i < j {
      ScanSkip(text, mask, i + 1, j);
    }
  }

  /** No link starts at a masked position or one that is not `[`. */
  lemma NoLinkWithoutBracket(text: string, mask: seq<bool>, k: nat)
    requires |mask| == |text| && k <= |text|
    requires k == |text| || text[k] != '[' || mask[k]
    ensures LinkAt(text, mask, k).None?
  {
  }

  /** A text with no unmasked opening bracket has no tokens. */
  lemma NoBracketNoTokens(text: string)
    requires forall k :: 0 <= k < |text| ==> text[k] != '[' || CodeMask(text)[k]
    ensures Tokens(text) == []
  {
    var mask := CodeMask(text);
    forall k | 0 <= k < |text| ensures LinkAt(text, mask, k).None? {
      NoLinkWithoutBracket(text, mask, k);
    }
    ScanSkip(text, mask, 0, |text|);
  }

  /** The link at an offset is determined by the text: its inner text ends
      at the first closing pair. */
  lemma LinkDetermined(text: string, mask: seq<bool>, i: nat, t: string, u: string)
    requires IsLinkAt(text, mask, i, t) && IsLinkAt(text, mask, i, u)
    ensures t == u
  {
    assert LinkAt(text, mask, i) == Some(t);
  }

  /** A link opened by an escaped bracket pair is not a link. */
  lemma EscapedNotLink(text: string, mask: seq<bool>, i: nat, t: string)
    requires |mask| == |text| && 0 < i <= |text| && text[i - 1] == '\\' && !mask[i - 1]
    ensures !IsLinkAt(text, mask, i, t)
  {
  }
}

=== FILE: vault_basic.dfy ===
/** The basic example vault: a target note, one note that links to it by
    name and one note without links. Texts with links are written with
    `Link`, so `"See " + Link("target")` is the text `See [[target]]`. */
module BasicVault {
  import opened Wrappers
  import opened CodeSpans
  import opened Tokenizer
  import opened LinkRefs
  import opened Identity
  import opened Backlinks
  import opened NoteFacts

  const TargetText: string := "# Target Note\n\nThis is the target."
  const LinkerPre: string := "# Linker\n\nSee "
  const LinkerPost: string := " for details."
  const LinkerText: string := LinkerPre + Link("target") + LinkerPost
  const OtherText: string := "# Other\n\nNo links here."

  const Target: Doc := Doc("target.md", TargetText)
  const LinkerNote: Doc := Doc("linker.md", LinkerText)
  const Other: Doc := Doc("other.md", OtherText)
  const Vault: seq<Doc> := [Target, LinkerNote, Other]

  lemma TargetIdentity()
    ensures NoteIdentity(Target) == {"target"}
  {
    assert TargetText[0] == '#';
    assert "target" + ".md" == "target.md";
    PlainIdentity(Target, "target");
  }

  lemma OtherIdentity()
    ensures NoteIdentity(Other) == {"other"}
  {
    assert OtherText[0] == '#';
    assert "other" + ".md" == "other.md";
    PlainIdentity(Other, "other");
  }

  lemma LinkerPieces()
    ensures Plain(LinkerPre) && Plain(LinkerPost) && '[' !in LinkerPre && '[' !in LinkerPost
    ensures LinkerPre[|LinkerPre| - 1] != '\\'
  {
  }

  lemma TargetChars()
    ensures Plain("target") && forall k :: 0 <= k < 6 ==> IsLinkChar("target"[k])
  {
  }

  /** `target` is a plain name that refers to itself. */
  lemma TargetName()
    ensures Reference("target") == Some("target")
  {
    ExtensionIgnored("target");
  }

  /** `linker.md` links to a note exactly when `target` is one of its names. */
  lemma LinkerLinksTo(ids: set<string>)
    ensures LinksTo(ids, LinkerText) <==> "target" in ids
  {
    LinkerPieces();
    TargetChars();
    TargetName();
    SingleLinkText(ids, LinkerPre, "target", LinkerPost, "target");
  }

  lemma NoBrackets()
    ensures '[' !in TargetText && '[' !in OtherText
  {
  }

  lemma Distinct()
    ensures DistinctPaths(Vault)
  {
  }

  /** Selecting from the vault, one note at a time. */
  lemma SelectAll(self: string, links: Doc -> bool)
    ensures Selected(Vault, self, links)
            == (if Links(self, links, Target) then [Record(Target)] else [])
               + ((if Links(self, links, LinkerNote) then [Record(LinkerNote)] else [])
                  + (if Links(self, links, Other) then [Record(Other)] else []))
  {
    var last := if Links(self, links, Other) then [Record(Other)] else [];
    assert Vault[3..] == [];
    SelectedStep(Vault, 2, self, links);
    assert Selected(Vault[2..], self, links) == last;
    SelectedStep(Vault, 1, self, links);
    SelectedStep(Vault, 0, self, links);
    assert Vault[0..] == Vault;
  }

  lemma CollectTarget()
    ensures Collect(Vault, "target.md", Linker({"target"})) == [Record(LinkerNote)]
  {
    var links := Linker({"target"});
    LinkerLinksTo({"target"});
    NoBrackets();
    NoBracketNoLinks({"target"}, OtherText);
    assert Links("target.md", links, LinkerNote) && !Links("target.md", links, Other);
    Distinct();
    CollectSelected(Vault, "target.md", links);
    SelectAll("target.md", links);
  }

  lemma LinkerRecord()
    ensures Record(LinkerNote) == Backlink("linker.md", "linker.md")
  {
    TopLevelFileName("linker.md");
  }

  /** Searching for `target.md` finds `linker.md` alone, with its file
      name; `target.md` itself is not listed. */
  lemma SingleBacklink()
    ensures FindBacklinks(Vault, "target.md") == Ok([Backlink("linker.md", "linker.md")])
  {
    assert ResolveTarget(Vault, "target.md") == Ok(Target);
    TargetIdentity();
    FindBacklinksOf(Vault, "target.md", Target, {"target"});
    CollectTarget();
    LinkerRecord();
  }

  lemma CollectOther()
    ensures Collect(Vault, "other.md", Linker({"other"})) == []
  {
    var links := Linker({"other"});
    LinkerLinksTo({"other"});
    NoBrackets();
    NoBracketNoLinks({"other"}, TargetText);
    assert !Links("other.md", links, Target) && !Links("other.md", links, LinkerNote);
    Distinct();
    CollectSelected(Vault, "other.md", links);
    SelectAll("other.md", links);
  }

  /** Nothing links to `other.md`: the result is empty, not an error. */
  lemma NoBacklinks()
    ensures FindBacklinks(Vault, "other.md") == Ok([])
  {
    assert Vault[0].path != "other.md" && Vault[1].path != "other.md";
    FindAt(Vault, 2, "other.md");
    OtherIdentity();
    FindBacklinksOf(Vault, "other.md", Other, {"other"});
    CollectOther();
  }

  /** A target path that names no note of the vault is an error. */
  lemma NonexistentTarget()
    ensures FindBacklinks(Vault, "nonexistent.md") == Err(TargetNotFound("nonexistent.md"))
  {
    var ps := Paths(Vault);
    assert ps[0] != "nonexistent.md" && ps[1] != "nonexistent.md" && ps[2] != "nonexistent.md";
    assert "nonexistent.md"[11..] == ".md";
  }
}

=== FILE: vault_complex.dfy ===
/** The example vault of link forms: a target note with two aliases in its
    front matter, and notes that link to it with the `.md` extension,
    without it, by an alias, with display text, twice, not at all, and from
    a sub-folder. The target's text is
    `---\naliases: [goal, objective]\n---\n# Target Note`. */
module ComplexVault {
  import opened Wrappers
  import opened Strings
  import opened CodeSpans
  import opened Tokenizer
  import opened LinkRefs
  import opened FrontMatter
  import opened Identity
  import opened Backlinks
  import opened NoteFacts

  const GoalList: string := "[" + "goal" + ", " + "objective" + "]"
  const AliasLine: string := AliasKey + " " + GoalList
  const TargetBody: string := "# Target Note"
  const TargetText: string := Delimiter + "\n" + AliasLine + "\n" + Delimiter + "\n" + TargetBody
  const Note1Text: string := "See " + Link("target.md") + " here."
  const Note2Text: string := "See " + Link("target") + " here."
  const Note3Text: string := "See " + Link("goal") + " for info."
  const Note4Text: string := "See " + Link("target|the target") + " here."
  const Note5Rest: string := " and " + Link("target.md") + " mentioned."
  const Note5Text: string := "Both " + Link("target") + Note5Rest
  const Note6Text: string := "Just plain text."
  const ProjectText: string := "Reference: " + Link("target")

  const Target: Doc := Doc("target.md", TargetText)
  const Note1: Doc := Doc("note1.md", Note1Text)
  const Note2: Doc := Doc("note2.md", Note2Text)
  const Note3: Doc := Doc("note3.md", Note3Text)
  const Note4: Doc := Doc("note4.md", Note4Text)
  const Note5: Doc := Doc("note5.md", Note5Text)
  const Note6: Doc := Doc("note6.md", Note6Text)
  const Project: Doc := Doc("projects/project.md", ProjectText)
  const Vault: seq<Doc> := [Target, Note1, Note2, Note3, Note4, Note5, Note6, Project]

  /** The names of the target note. */
  const Ids: set<string> := {"target", "goal", "objective"}

  // The target's front matter.

  lemma AliasLineShape()
    ensures '\n' !in AliasLine && AliasLine != Delimiter && StartsWith(AliasLine, AliasKey)
    ensures AliasLine[|AliasKey|..] == " " + GoalList
  {
    assert AliasLine[..|AliasKey|] == AliasKey;
  }

  lemma GoalNames()
    ensures IsAliasName("goal") && IsAliasName("objective")
  {
  }

  /** The front matter declares the aliases `goal` and `objective`. */
  lemma TargetAliases()
    ensures Aliases(TargetText) == ["goal", "objective"]
  {
    AliasLineShape();
    HeaderAliases(AliasLine, TargetBody);
    GoalNames();
    SpacedPairList("goal", "objective");
    PaddedList(GoalList);
  }

  /** The target answers to its base name and both aliases. */
  lemma TargetIdentity()
    ensures NoteIdentity(Target) == Ids
  {
    TargetAliases();
    TargetBaseName();
    IdentityOf(Target, "target", ["goal", "objective"]);
  }

  lemma TargetBaseName()
    ensures BaseName("target.md") == "target"
  {
    NamesOfNote([], "target");
    TargetMd();
  }

  lemma TargetMd()
    ensures "target" + Extension == "target.md"
  {
  }

  // The link tokens.

  lemma TokenChars()
    ensures Plain("target") && forall k :: 0 <= k < 6 ==> IsLinkChar("target"[k])
    ensures Plain("target.md") && forall k :: 0 <= k < 9 ==> IsLinkChar("target.md"[k])
    ensures Plain("goal") && forall k :: 0 <= k < 4 ==> IsLinkChar("goal"[k])
  {
  }

  lemma PipeTokenChars()
    ensures Plain("target|the target") && forall k :: 0 <= k < 17 ==> IsLinkChar("target|the target"[k])
  {
  }

  lemma TargetToken()
    ensures Reference("target") == Some("target")
  {
    ExtensionIgnored("target");
  }

  /** `[[target.md]]` names `target`. */
  lemma ExtensionToken()
    ensures Reference("target.md") == Some("target")
  {
    ExtensionIgnored("target");
    TargetMd();
  }

  lemma GoalToken()
    ensures Reference("goal") == Some("goal")
  {
    ExtensionIgnored("goal");
  }

  lemma PipeSpelled()
    ensures "target" + "|" + "the target" == "target|the target"
  {
  }

  /** `[[target|the target]]` names `target`. */
  lemma PipeToken()
    ensures Reference("target|the target") == Some("target")
  {
    PipeIgnored("target", "the target");
    PipeSpelled();
    TargetToken();
  }

  // The linking notes.

  lemma Pieces()
    ensures Plain("See ") && Plain(" here.") && Plain(" for info.") && Plain("Both ") && Plain("Reference: ")
    ensures '[' !in "See " && '[' !in " here." && '[' !in " for info." && '[' !in "Reference: "
    ensures "See "[3] != '\\' && "Both "[4] != '\\' && "Reference: "[10] != '\\'
  {
  }

  /** `[[target.md]]` refers to the note named `target`. */
  lemma Note1LinksTo(ids: set<string>)
    ensures LinksTo(ids, Note1Text) <==> "target" in ids
  {
    Pieces();
    TokenChars();
    ExtensionToken();
    SingleLinkText(ids, "See ", "target.md", " here.", "target");
  }

  /** `[[target]]` refers to the note named `target`. */
  lemma Note2LinksTo(ids: set<string>)
    ensures LinksTo(ids, Note2Text) <==> "target" in ids
  {
    Pieces();
    TokenChars();
    TargetToken();
    SingleLinkText(ids, "See ", "target", " here.", "target");
  }

  /** `[[goal]]` refers to a note exactly when `goal` is one of its names. */
  lemma Note3LinksTo(ids: set<string>)
    ensures LinksTo(ids, Note3Text) <==> "goal" in ids
  {
    Pieces();
    TokenChars();
    GoalToken();
    SingleLinkText(ids, "See ", "goal", " for info.", "goal");
  }

  /** `[[target|the target]]` refers to the note named `target`. */
  lemma Note4LinksTo(ids: set<string>)
    ensures LinksTo(ids, Note4Text) <==> "target" in ids
  {
    Pieces();
    PipeTokenChars();
    PipeToken();
    SingleLinkText(ids, "See ", "target|the target", " here.", "target");
  }

  lemma Note5RestPlain()
    ensures Plain(Note5Rest)
  {
    assert Plain(" and ") && Plain(" mentioned.");
    TokenChars();
    LinkPlain(" and ", "target.md", " mentioned.");
  }

  /** A note with two links to `target` links to it. */
  lemma Note5LinksTo(ids: set<string>)
    requires "target" in ids
    ensures LinksTo(ids, Note5Text)
  {
    Pieces();
    TokenChars();
    TargetToken();
    Note5RestPlain();
    SomeLinkText(ids, "Both ", "target", Note5Rest, "target");
  }

  lemma Note6NoLinks(ids: set<string>)
    ensures !LinksTo(ids, Note6Text)
  {
    assert '[' !in Note6Text;
    NoBracketNoLinks(ids, Note6Text);
  }

  /** The note in the sub-folder links to `target` by name. */
  lemma ProjectLinksTo(ids: set<string>)
    ensures LinksTo(ids, ProjectText) <==> "target" in ids
  {
    Pieces();
    TokenChars();
    TargetToken();
    assert Plain("") && '[' !in "";
    SingleLinkText(ids, "Reference: ", "target", "", "target");
    assert ProjectText == "Reference: " + Link("target") + "";
  }

  // The search.

  lemma Distinct()
    ensures DistinctPaths(Vault)
  {
  }

  /** Which notes link to the target: all but the target itself and the
      note without links. */
  lemma LinkingNotes()
    ensures var links := Linker(Ids);
            Links("target.md", links, Note1) && Links("target.md", links, Note2)
            && Links("target.md", links, Note3) && Links("target.md", links, Note4)
            && Links("target.md", links, Note5) && Links("target.md", links, Project)
            && !Links("target.md", links, Target) && !Links("target.md", links, Note6)
  {
    Note1LinksTo(Ids);
    Note2LinksTo(Ids);
    Note3LinksTo(Ids);
    Note4LinksTo(Ids);
    Note5LinksTo(Ids);
    Note6NoLinks(Ids);
    ProjectLinksTo(Ids);
  }

  /** Selecting from eight notes under any test that every note but the
      first and the seventh passes. */
  lemma SelectLinking(t: Doc, n1: Doc, n2: Doc, n3: Doc, n4: Doc, n5: Doc, n6: Doc, p: Doc,
                      links: Doc -> bool)
    requires !Links("target.md", links, t) && !Links("target.md", links, n6)
    requires Links("target.md", links, n1) && Links("target.md", links, n2)
    requires Links("target.md", links, n3) && Links("target.md", links, n4)
    requires Links("target.md", links, n5) && Links("target.md", links, p)
    ensures Selected([t, n1, n2, n3, n4, n5, n6, p], "target.md", links)
            == [Record(n1), Record(n2), Record(n3), Record(n4), Record(n5), Record(p)]
  {
    var x7 := [p] + [];
    var x6 := [n6] + x7;
    var x5 := [n5] + x6;
    var x4 := [n4] + x5;
    var x3 := [n3] + x4;
    var x2 := [n2] + x3;
    var x1 := [n1] + x2;
    var r6 := [Record(p)] + [];
    var r5 := [Record(n5)] + r6;
    var r4 := [Record(n4)] + r5;
    var r3 := [Record(n3)] + r4;
    var r2 := [Record(n2)] + r3;
    var r1 := [Record(n1)] + r2;
    SelectedKeep(p, [], "target.md", links, []);
    SelectedSkip(n6, x7, "target.md", links, r6);
    SelectedKeep(n5, x6, "target.md", links, r6);
    SelectedKeep(n4, x5, "target.md", links, r5);
    SelectedKeep(n3, x4, "target.md", links, r4);
    SelectedKeep(n2, x3, "target.md", links, r3);
    SelectedKeep(n1, x2, "target.md", links, r2);
    SelectedSkip(t, x1, "target.md", links, r1);
    Spelled8(t, n1, n2, n3, n4, n5, n6, p);
    Spelled6(Record(n1), Record(n2), Record(n3), Record(n4), Record(n5), Record(p));
  }

  /** An eight-element sequence written element by element. */
  lemma Spelled8<T>(a: T, b: T, c: T, d: T, e: T, f: T, g: T, h: T)
    ensures [a] + ([b] + ([c] + ([d] + ([e] + ([f] + ([g] + ([h] + []))))))) == [a, b, c, d, e, f, g, h]
  {
  }

  /** A six-element sequence written element by element. */
  lemma Spelled6<T>(a: T, b: T, c: T, d: T, e: T, f: T)
    ensures [a] + ([b] + ([c] + ([d] + ([e] + ([f] + []))))) == [a, b, c, d, e, f]
  {
  }

  lemma CollectTarget()
    ensures Collect(Vault, "target.md", Linker(Ids))
            == [Record(Note1), Record(Note2), Record(Note3), Record(Note4), Record(Note5), Record(Project)]
  {
    LinkingNotes();
    Distinct();
    CollectSelected(Vault, "target.md", Linker(Ids));
    SelectLinking(Target, Note1, Note2, Note3, Note4, Note5, Note6, Project, Linker(Ids));
  }

  lemma Note1Record()
    ensures Record(Note1) == Backlink("note1.md", "note1.md")
  {
    TopLevelRecord(Note1);
  }

  lemma Note2Record()
    ensures Record(Note2) == Backlink("note2.md", "note2.md")
  {
    TopLevelRecord(Note2);
  }

  lemma Note3Record()
    ensures Record(Note3) == Backlink("note3.md", "note3.md")
  {
    TopLevelRecord(Note3);
  }

  lemma Note4Record()
    ensures Record(Note4) == Backlink("note4.md", "note4.md")
  {
    TopLevelRecord(Note4);
  }

  lemma Note5Record()
    ensures Record(Note5) == Backlink("note5.md", "note5.md")
  {
    TopLevelRecord(Note5);
  }

  /** The note in the sub-folder is listed with its full path and its bare
      file name. */
  lemma ProjectRecord()
    ensures Record(Project) == Backlink("projects/project.md", "project.md")
  {
    NestedRecord("projects", "project", ProjectText);
    assert "projects" + [PathSeparator] + "project" + Extension == "projects/project.md";
    assert "project" + Extension == "project.md";
  }

  /** Every link form finds its note: with and without `.md`, by alias, with
      display text, repeated, and from a sub-folder; the note without links
      and the target itself are absent. */
  lemma SearchTarget()
    ensures FindBacklinks(Vault, "target.md")
            == Ok([Backlink("note1.md", "note1.md"), Backlink("note2.md", "note2.md"),
                   Backlink("note3.md", "note3.md"), Backlink("note4.md", "note4.md"),
                   Backlink("note5.md", "note5.md"), Backlink("projects/project.md", "project.md")])
  {
    assert ResolveTarget(Vault, "target.md") == Ok(Target);
    TargetIdentity();
    FindBacklinksOf(Vault, "target.md", Target, Ids);
    CollectTarget();
    Note1Record();
    Note2Record();
    Note3Record();
    Note4Record();
    Note5Record();
    ProjectRecord();
  }

  /** `note5.md` links twice but is listed once. */
  lemma Note5Once()
    ensures FindBacklinks(Vault, "target.md").Ok?
    ensures Count(FindBacklinks(Vault, "target.md").value, "note5.md") == 1
  {
    assert ResolveTarget(Vault, "target.md") == Ok(Target);
    TargetIdentity();
    Note5LinksTo(Ids);
    LinkingNoteOnce(Vault, "target.md", Note5);
  }
}

=== FILE: vault_edge.dfy ===
/** The example vault of edge cases: a target note `meeting.md`, a note
    whose name merely starts with the target's, a note linking to each,
    and three notes whose `[[meeting]]` is not a link: inside a fenced code
    block, inside inline code, and escaped with a backslash. */
module EdgeVault {
  import opened Wrappers
  import opened CodeSpans
  import opened Tokenizer
  import opened LinkRefs
  import opened Identity
  import opened Backlinks
  import opened NoteFacts

  const MeetingText: string := "# Meeting Notes"
  const SimilarText: string := "Different file"
  const AgendaText: string := "See " + Link("meeting") + " notes."
  const ReviewText: string := "See " + Link("meeting-2024") + " notes."
  const CodeLine: string := Link("meeting") + " should not count"
  const CodeText: string := "```" + "\n" + CodeLine + "\n" + "```"
  const InlineTail: string := " link is in inline code."
  const InlineText: string := "The " + "`" + Link("meeting") + "`" + InlineTail
  const EscapedText: string := "\\" + Link("meeting") + " is escaped."

  const Meeting: Doc := Doc("meeting.md", MeetingText)
  const Similar: Doc := Doc("meeting-2024.md", SimilarText)
  const Agenda: Doc := Doc("agenda.md", AgendaText)
  const Review: Doc := Doc("review.md", ReviewText)
  const Code: Doc := Doc("code.md", CodeText)
  const Inline: Doc := Doc("inline.md", InlineText)
  const Escaped: Doc := Doc("escaped.md", EscapedText)
  const Vault: seq<Doc> := [Meeting, Similar, Agenda, Review, Code, Inline, Escaped]

  lemma MeetingIdentity()
    ensures NoteIdentity(Meeting) == {"meeting"}
  {
    assert MeetingText[0] == '#';
    assert "meeting" + ".md" == "meeting.md";
    PlainIdentity(Meeting, "meeting");
  }

  lemma TokenChars()
    ensures Plain("meeting") && forall k :: 0 <= k < 7 ==> IsLinkChar("meeting"[k])
    ensures Plain("meeting-2024") && forall k :: 0 <= k < 12 ==> IsLinkChar("meeting-2024"[k])
    ensures '\n' !in "meeting"
  {
  }

  lemma MeetingToken()
    ensures Reference("meeting") == Some("meeting")
  {
    ExtensionIgnored("meeting");
  }

  /** `[[meeting-2024]]` names `meeting-2024`, not `meeting`. */
  lemma SimilarToken()
    ensures Reference("meeting-2024") == Some("meeting-2024")
  {
    ExtensionIgnored("meeting-2024");
  }

  lemma Pieces()
    ensures Plain("See ") && Plain(" notes.") && '[' !in "See " && '[' !in " notes." && "See "[3] != '\\'
  {
  }

  lemma InlinePieces()
    ensures Plain("The ") && '[' !in "The " && '\n' !in "The "
    ensures Plain(InlineTail) && '[' !in InlineTail && '\n' !in InlineTail
  {
    assert Plain(InlineTail);
    assert '[' !in InlineTail && '\n' !in InlineTail;
  }

  lemma EscapedPieces()
    ensures Plain("\\") && Plain(" is escaped.") && '[' !in "\\" && '[' !in " is escaped." && "\\"[0] == '\\'
  {
  }

  /** `agenda.md` links to a note exactly when `meeting` is one of its names. */
  lemma AgendaLinksTo(ids: set<string>)
    ensures LinksTo(ids, AgendaText) <==> "meeting" in ids
  {
    Pieces();
    TokenChars();
    MeetingToken();
    SingleLinkText(ids, "See ", "meeting", " notes.", "meeting");
  }

  /** `review.md` links to a note exactly when `meeting-2024` is one of its
      names. */
  lemma ReviewLinksTo(ids: set<string>)
    ensures LinksTo(ids, ReviewText) <==> "meeting-2024" in ids
  {
    Pieces();
    TokenChars();
    SimilarToken();
    SingleLinkText(ids, "See ", "meeting-2024", " notes.", "meeting-2024");
  }

  lemma CodeLineShape()
    ensures CodeLine != [] && CodeLine[0] != '`' && '\n' !in CodeLine
  {
    assert '\n' !in [] && '\n' !in " should not count";
    TokenChars();
    LinkTextFree([], "meeting", " should not count", '\n');
    assert CodeLine == [] + Link("meeting") + " should not count";
  }

  /** The link inside the fenced block is not a link. */
  lemma CodeNoLinks(ids: set<string>)
    ensures !LinksTo(ids, CodeText)
  {
    CodeLineShape();
    FencedLink(ids, CodeLine);
  }

  /** The link inside inline code is not a link. */
  lemma InlineNoLinks(ids: set<string>)
    ensures !LinksTo(ids, InlineText)
  {
    InlinePieces();
    TokenChars();
    InlineCodeLink(ids, "The ", "meeting", InlineTail);
  }

  /** The escaped link is not a link. */
  lemma EscapedNoLinks(ids: set<string>)
    ensures !LinksTo(ids, EscapedText)
  {
    EscapedPieces();
    TokenChars();
    EscapedLink(ids, "\\", "meeting", " is escaped.");
  }

  lemma SimilarNoLinks(ids: set<string>)
    ensures !LinksTo(ids, SimilarText)
  {
    assert '[' !in SimilarText;
    NoBracketNoLinks(ids, SimilarText);
  }

  /** Only `agenda.md` links to `meeting`. */
  lemma LinkingNotes()
    ensures var links := Linker({"meeting"});
            Links("meeting.md", links, Agenda)
            && !Links("meeting.md", links, Meeting) && !Links("meeting.md", links, Similar)
            && !Links("meeting.md", links, Review) && !Links("meeting.md", links, Code)
            && !Links("meeting.md", links, Inline) && !Links("meeting.md", links, Escaped)
  {
    var ids := {"meeting"};
    AgendaLinksTo(ids);
    ReviewLinksTo(ids);
    SimilarNoLinks(ids);
    CodeNoLinks(ids);
    InlineNoLinks(ids);
    EscapedNoLinks(ids);
    assert "meeting-2024" !in ids;
  }

  lemma Distinct()
    ensures DistinctPaths(Vault)
  {
  }

  /** Selecting under any test that, of the vault's notes, only
      `agenda.md` passes. */
  lemma SelectAgenda(links: Doc -> bool)
    requires Links("meeting.md", links, Agenda)
    requires !Links("meeting.md", links, Meeting) && !Links("meeting.md", links, Similar)
    requires !Links("meeting.md", links, Review) && !Links("meeting.md", links, Code)
    requires !Links("meeting.md", links, Inline) && !Links("meeting.md", links, Escaped)
    ensures Selected(Vault, "meeting.md", links) == [Record(Agenda)]
  {
    assert Vault[7..] == [];
    SelectedStep(Vault, 6, "meeting.md", links);
    SelectedStep(Vault, 5, "meeting.md", links);
    SelectedStep(Vault, 4, "meeting.md", links);
    SelectedStep(Vault, 3, "meeting.md", links);
    assert Selected(Vault[3..], "meeting.md", links) == [];
    SelectedStep(Vault, 2, "meeting.md", links);
    SelectedStep(Vault, 1, "meeting.md", links);
    SelectedStep(Vault, 0, "meeting.md", links);
    assert Vault[0..] == Vault;
  }

  lemma CollectMeeting()
    ensures Collect(Vault, "meeting.md", Linker({"meeting"})) == [Record(Agenda)]
  {
    LinkingNotes();
    Distinct();
    CollectSelected(Vault, "meeting.md", Linker({"meeting"}));
    SelectAgenda(Linker({"meeting"}));
  }

  /** Searching for `meeting.md` finds `agenda.md` alone: not the note that
      links to `meeting-2024`, and none of the notes whose link sits in code
      or is escaped. */
  lemma SearchMeeting()
    ensures FindBacklinks(Vault, "meeting.md") == Ok([Backlink("agenda.md", "agenda.md")])
  {
    MeetingResolves();
    MeetingIdentity();
    FindBacklinksOf(Vault, "meeting.md", Meeting, {"meeting"});
    CollectMeeting();
    AgendaRecord();
  }

  lemma MeetingResolves()
    ensures ResolveTarget(Vault, "meeting.md") == Ok(Meeting)
  {
    assert Vault[0] == Meeting;
  }

  lemma AgendaRecord()
    ensures Record(Agenda) == Backlink("agenda.md", "agenda.md")
  {
    TopLevelFileName("agenda.md");
  }
}

=== FILE: wrappers.dfy ===
/** Optional values and success-or-error results, used wherever the modelled
    code may find nothing or fail. */
module Wrappers {

  datatype Option<+T> = None | Some(value: T)

  datatype Result<+T, +E> = Ok(value: T) | Err(error: E)
}
